=== FILE: README.md ===
# pyallocopt in Dafny

pyallocopt is a Python wrapper around the Julia allocation optimizer
AllocationOpt.jl for indexers of The Graph. This project models the wrapper's
own logic and proves properties of it. The model has three parts.

- **The GRT fixed-point codec** (`grt_utils.py`).
  - GRT has 18 decimals.
  - `grt_wei_to_decimal` divides an integer wei amount by 10^18 inside a
    `decimal` context of 78 digits.
  - `grt_decimal_to_wei` quantizes a `Decimal` to 10^-18 under a chosen or the
    context's rounding, multiplies by 10^18 and truncates with `int()`.
  - Both swap the thread's decimal context in and restore it afterwards.
- **`opt_fun`**, the Julia function the wrapper defines and runs
  (`allocopt.py:131-194`).
  - It computes the free stake σ = available − frozen − σpinned, and fails
    when σ ≤ 0.
  - It caps the number of allocations at K = min(max_allocations, #rewardable).
  - It calls the optimizer and adds the pinned stake back into every column
    of the plan.
  - It rejects the whole plan when a column sum exceeds σ + σpinned.
  - It reports the best `num_reported_options` strategies.
- **`allocopt`**, the Python entry point (`allocopt.py:26-206`).
  - It turns missing or empty subgraph lists into `[]`.
  - It builds the configuration, asking for exactly one reported option.
  - It asserts that one strategy came back.
  - It converts that strategy's amounts to a map from deployment ID to wei.

Python's `decimal` is modelled as far as the codec uses it (`decimal.dfy`). A
number is a sign, an integer coefficient and an exponent, as in the General
Decimal Arithmetic Specification. The model has all eight `ROUND_*` modes
(`rounding.dfy`), a context's precision and rounding, and the signals the
codec can raise.

- Each rounding mode has a declarative meaning, and the integer algorithm
  that implements it is proved to agree with it.
- The thread's current context is a value. A conversion takes it as input,
  returns it unchanged, and is proved not to depend on it.
- Julia's `Float64` plan entries are reals or NaN.
- The AllocationOpt.jl library functions that `opt_fun` calls are
  uninterpreted function fields of `OptFun.Engine`: `snapshot`, `optimize`,
  `groupunique`, `bestprofitpernz`, `sortprofits` (for `sortprofits!`) and
  `strategydict`. The single field `snapshot` stands for everything read
  before the optimizer runs: `read`, `allocatablesubgraphs`, `pinned`,
  `availablestake`, `frozen` and `deniedzeroixs`.

Files: `wrappers.dfy` (Option/Result), `arith.dfy` (powers of ten, digit
counts), `rounding.dfy`, `decimal.dfy`, `grt_utils.dfy`, `opt_fun.dfy`,
`allocopt.dfy`.

## Model

| member | source | states |
|---|---|---|
| GrtUtils.WithGrtContext | allocopt/grt_utils.py:14-29 | The block runs under the 78-digit GRT context, and the caller's context is current again afterwards, whatever the block returned or raised |
| GrtUtils.GrtWeiToDecimal | allocopt/grt_utils.py:32-43 | Always returns a finite decimal of at most 78 digits. The decimal is exactly w·10^-18 whenever \|w\| < 10^78. Otherwise w is rounded half-even to 78 significant digits (k = digits(w) − 78 ≥ 1 low digits dropped) and then scaled by 10^-18. The caller's context is restored |
| GrtUtils.WeiToDecimalIn | allocopt/grt_utils.py:42 | `Decimal(w) / _GRT_DECIMAL_FACTOR` in any context succeeds with a finite decimal of sign w < 0 and at most `prec` digits. It is exactly w·10^-18 when w has at most `prec` digits; otherwise it is RoundDiv(w, 10^k, rounding)·10^(k−18) with k = digits(w) − prec |
| GrtUtils.Quantum | allocopt/grt_utils.py:61 | `1 / _GRT_DECIMAL_FACTOR` is exactly 1E-18 in every context |
| GrtUtils.DecimalToWeiIn | allocopt/grt_utils.py:59-63 | In any context: a finite amount converts exactly when x·10^18 rounded under the effective mode has fewer than `prec + 1` digits, and then gives that rounded integer; otherwise `quantize` raises InvalidOperation. A quiet NaN raises ValueError in `int()`; an infinity or signalling NaN raises InvalidOperation in `quantize` |
| GrtUtils.GrtDecimalToWei | allocopt/grt_utils.py:46-64 | For a finite amount, succeeds exactly when x·10^18, rounded under the effective mode, has fewer than 79 digits, and then returns that rounded integer. Otherwise it raises InvalidOperation. A quiet NaN raises ValueError, and an infinity or a signalling NaN raises InvalidOperation. The effective mode is the given one, or half-even when `None`. The caller's context is restored |
| GrtUtils.RoundTrip | allocopt/grt_utils.py:32-64 | Decimal-to-wei after wei-to-decimal returns w, for any rounding and any ambient contexts, exactly when \|w\| < 10^78. Otherwise it raises InvalidOperation |
| GrtUtils.MaxUint256Fits | allocopt/grt_utils.py:7-9 | 2^256−1 has exactly 78 digits, so it fits the context's precision |
| GrtUtils.Uint256RoundTrip | allocopt/grt_utils.py:7-9 | Every amount with \|w\| ≤ 2^256−1 becomes an exact decimal and converts back to itself |
| GrtUtils.GridRoundTrip | allocopt/grt_utils.py:59-63 | An amount on the 10^-18 grid converts to the wei integer it denotes, in every mode, and that integer converts back to the same amount: `int()` discards nothing |
| GrtUtils.DecimalToWeiError | allocopt/grt_utils.py:59-63 | The result is within one wei of x·10^18 in every mode and within half a wei in the half modes. It is exact when x·10^18 is whole |
| GrtUtils.DecimalToWeiBracketed | allocopt/grt_utils.py:46-63 | Floor ≤ any mode ≤ Ceiling. Floor and Ceiling differ by at most one and bracket x·10^18 |
| GrtUtils.DecimalToWeiDirection | allocopt/grt_utils.py:46-63 | ROUND_DOWN never increases the magnitude of x·10^18 and ROUND_UP never decreases it. Neither changes the sign |
| GrtUtils.DefaultRoundingIsHalfEven | allocopt/grt_utils.py:7-9 | `rounding=None` behaves as ROUND_HALF_EVEN, the rounding the GRT context inherits from the default context |
| GrtUtils.NoneUsesContextRounding | allocopt/grt_utils.py:53-54 | `rounding=None` uses the rounding of the context in force |
| GrtUtils.AmbientIrrelevant | allocopt/grt_utils.py:24-29 | Neither conversion's result depends on the caller's context |
| GrtUtils.ScaleBack | allocopt/grt_utils.py:60-63 | Multiplying a quantized coefficient of at most `prec` digits by the factor yields a whole number, and `int()` returns the signed coefficient |
| GrtUtils.DefaultContextRoundsWei | allocopt/grt_utils.py:7-11 | With 29 to 78 digits and a nonzero last digit, the division is exact under the GRT context. Under Python's 28-digit default context it is not |
| GrtUtils.MaxUint256NeedsGrtContext | allocopt/grt_utils.py:7-9 | 2^256−1 wei divides exactly only under the 78-digit context |
| GrtUtils.DefaultContextRefusesQuantize | allocopt/grt_utils.py:59-61 | Quantizing 10^e GRT (10 ≤ e ≤ 59) to 10^-18 raises InvalidOperation under the default context. Under the GRT context it gives 10^(e+18) wei |
| Rounding.RoundDivIsTheRounding | allocopt/grt_utils.py:61 | The integer rounding used for `quantize` meets the declarative meaning of each `ROUND_*` mode, and is the only integer that does |
| Rounding.RoundDivError | allocopt/grt_utils.py:61 | Rounding n/d is within one unit in every mode and within half a unit in the half modes. It is exact when d divides n |
| Decimal.FromInt | allocopt/grt_utils.py:42 | `Decimal(grt_wei)` is exact with exponent 0 |
| Decimal.Reduce | allocopt/grt_utils.py:42 | The exact quotient keeps its value while trailing zeros move into the exponent, never past the ideal exponent |
| Decimal.Fix | allocopt/grt_utils.py:42 | Rounding to the precision keeps the sign, leaves at most `prec` digits, and changes nothing that already fits. A coefficient with k = digits − prec > 0 extra digits becomes RoundDiv(±c, 10^k) under the context's rounding, times 10^k (a carry may lengthen the exponent further) |
| Decimal.DivPow10 | allocopt/grt_utils.py:42 | Division by 10^k: a signalling NaN raises InvalidOperation, a quiet NaN or an infinity passes through. A finite quotient keeps its sign and fits `prec`; when the dividend fits, it is the exact quotient with its trailing zeros moved into the exponent, which stays between a.exp − k and the ideal exponent a.exp |
| Decimal.Quantize | allocopt/grt_utils.py:61 | `quantize` of a finite amount succeeds exactly when the coefficient rescaled to the target exponent under the mode has at most `prec` digits, and then returns that coefficient at the target exponent; otherwise InvalidOperation. An infinity or signalling NaN raises InvalidOperation; a quiet NaN passes through |
| Decimal.Rescale | allocopt/grt_utils.py:61 | Moving to a smaller exponent is exact; moving to a larger one gives the integer that meets the mode's declarative rounding of the value |
| Decimal.Multiply | allocopt/grt_utils.py:62 | A signalling NaN raises InvalidOperation. Two finite operands give a finite product with the exclusive-or sign, at most `prec` digits, exact when it fits. 0 × ∞ raises InvalidOperation; any other product with an infinity is an infinity with the exclusive-or sign |
| Decimal.ToInt | allocopt/grt_utils.py:60 | `int()` raises ValueError on NaN and OverflowError on an infinity. A finite value gives the signed whole part: exact for a non-negative exponent, truncated toward zero otherwise |
| OptFun.FreeStake | allocopt/allocopt.py:139-141 | σ together with σpinned makes up the available stake less the frozen stake |
| OptFun.PlanArguments | allocopt/allocopt.py:157-167 | The optimizer is called with σ = available − frozen − σpinned and the allocation cap K = min(max_allocations, number of rewardable subgraphs): K is at most each and equal to one of them |
| OptFun.Run | allocopt/allocopt.py:131-194 | NoStake exactly when σ ≤ 0; OptimizerFailed exactly when σ > 0 and `optimize` raises; otherwise the plan `optimize` returns for σ and K is settled. A budget failure carries a positive overflow. Reported strategies are the report built from the added-back plan, and every column of that plan sums to NaN or to at most available − frozen |
| OptFun.Settle | allocopt/allocopt.py:169-194 | After the optimizer: a shape mismatch exactly when the add-back cannot broadcast; otherwise a budget failure exactly when some added-back column sum exceeds σ + σpinned, carrying the first such column's positive overflow; otherwise strategies. Strategies come only from a plan whose add-back succeeded and whose every column sums to NaN or at most σ + σpinned, and are the report of that plan |
| OptFun.NoStakeIgnoresOptimizer | allocopt/allocopt.py:139-142 | Whether there is stake to allocate depends only on the data read, never on the optimizer |
| OptFun.AllocationCap | allocopt/allocopt.py:160 | K ≤ max_allocations, K ≤ the number of rewardable subgraphs, and K is one of the two |
| OptFun.AddBack | allocopt/allocopt.py:170 | The add-back succeeds exactly when the pinned vector has one entry per row and every column has that many rows. It keeps the shape, and entry (i, j) becomes x[i][j] + pinned[i] (NaN stays NaN) |
| OptFun.AddPinnedUndo | allocopt/allocopt.py:170 | Subtracting the pinned vector after the add-back restores the column exactly |
| OptFun.ColumnSumIsNaN | allocopt/allocopt.py:174 | A column sum is NaN exactly when some entry is NaN |
| OptFun.ColumnSumOfNumbers | allocopt/allocopt.py:174 | A column without NaN sums to the sum of its entries |
| OptFun.ColumnSumAddPinned | allocopt/allocopt.py:170-174 | After the add-back a column sums to its former sum plus σpinned |
| OptFun.FirstOverflow | allocopt/allocopt.py:173-178 | The check passes exactly when every column sum is NaN or at most σmax. A failure reports a positive overflow |
| OptFun.FirstOverflowLocated | allocopt/allocopt.py:174-177 | The reported overflow is that of the first failing column: every earlier column passed, and this one sums to σmax plus the overflow |
| OptFun.BudgetCheckIsRawCheck | allocopt/allocopt.py:170-178 | Checking the added-back plan against σ + σpinned gives the same verdict and overflow as checking the optimizer's plan against σ |
| OptFun.RejectsOverspentPlan | allocopt/allocopt.py:173-178 | A plan whose raw column overspends σ is rejected whole, with exactly that overflow and no strategies. It is never clipped. Otherwise strategies are reported |
| OptFun.ReportCount | allocopt/allocopt.py:188-192 | No strategy when num_reported_options is negative (the slice `popts[1:nreport]` is empty). Otherwise nreport is the smaller of num_reported_options and the number of ranked profiles |
| OptFun.RankedCandidates | allocopt/allocopt.py:182-187 | When `sortprofits!` keeps the length, there is one ranked profile per group of equal nonzero counts |
| OptFun.Report | allocopt/allocopt.py:187-192 | nreport strategies, the i-th built by `strategydict` from the i-th ranked profile, the added-back plan, the nonzero counts, the subgraphs and the profit matrix |
| OptFun.ReportBounds | allocopt/allocopt.py:182-192 | At most num_reported_options strategies, and, since `sortprofits!` keeps the length, at most one per group of equal nonzero counts |
| Allocopt.WithDefaults | allocopt/allocopt.py:26-38 | Omitted keyword arguments mean OptMode.OPTIMAL and no lists |
| Allocopt.Normalize | allocopt/allocopt.py:69-76 | The result is empty exactly when the list is missing or empty. Any other list is kept as given |
| Allocopt.ConfigFor | allocopt/allocopt.py:106-125 | num_reported_options is 1, max_allocations is the caller's max_new_allocations, and id and indexer_url are both the indexer address. The lists are normalised, verbose is on and there is no readdir. The network subgraph endpoint, allocation lifetime, gas, minimum signal and optimization mode are the caller's, so the OPTIMAL default reaches `opt_fun` |
| Allocopt.ToWeiMap | allocopt/allocopt.py:206 | The map is built exactly when every amount converts, and then every deployment ID is a key |
| Allocopt.MapKeysAreIds | allocopt/allocopt.py:206 | The keys are exactly the deployment IDs of the strategy |
| Allocopt.LastOccurrenceWins | allocopt/allocopt.py:206 | A repeated deployment ID maps to the amount of its last occurrence |
| Allocopt.FirstConversionErrorWins | allocopt/allocopt.py:206 | A failed map raises the error of the first amount that does not convert, and every earlier amount converts |
| Allocopt.MapValuesRoundHalfEven | allocopt/allocopt.py:206 | Every value of the map is the finite allocation amount times 10^18, rounded half-even |
| Allocopt.ToWeiMapAmbientIrrelevant | allocopt/allocopt.py:206 | The map does not depend on the caller's decimal context |
| Allocopt.Run | allocopt/allocopt.py:200-206 | Each failure of `opt_fun` (no stake exactly when σ ≤ 0, optimizer error, shape mismatch, budget overflow with its positive amount) passes through unchanged as `OptFunFailed`. A report whose length is not 1 fails the assertion with that length. A single strategy gives its converted map when every amount converts, and the first conversion error otherwise |
| Allocopt.StrategyCountFailsOnlyWhenEmpty | allocopt/allocopt.py:202 | With num_reported_options = 1, `opt_fun` never reports two strategies. The length assertion fails only when there was no profile to report |
| Allocopt.AllocationsRespectBudget | allocopt/allocopt.py:170-206 | A returned map comes from the best-ranked profile and the added-back plan, whose every column sums to NaN or to at most available − frozen |
| Allocopt.AmbientContextIrrelevant | allocopt/allocopt.py:200-206 | The result of `allocopt` does not depend on the caller's decimal context |

## Notes on the code

- **Budget ceiling.** Every column is checked against σmax = σ + σpinned,
  which is available − frozen (`allocopt.py:141`, `173`). A column whose sum
  is NaN passes the check (`allocopt.py:175`).
- **Errors.** Julia raises `AssertionError` from `@assert σ > 0` and
  `ErrorException` from `error(...)` through juliacall; Python raises
  `AssertionError` from `assert len(res) == 1`. The model has one `Outcome`
  variant per failure.
- **Round trip.** Wei → decimal → wei returns the amount exactly when it has
  at most 78 digits, which covers every 256-bit amount. Above that, the
  division rounds and `quantize` raises `InvalidOperation`
  (`GrtUtils.RoundTrip`).
- **Strategy count.** With `num_reported_options` fixed at 1, `opt_fun`
  cannot return two strategies, so the length assertion fails only on an
  empty report (`Allocopt.StrategyCountFailsOnlyWhenEmpty`).

## Left out

- Installing and loading the Julia packages through juliacall (`allocopt.py:78-97`, `127-130`): this is I/O and foreign code.
- Converting the Python lists and dict to Julia types (`allocopt.py:99-103`, `106`): identity on values in the model.
- The AllocationOpt.jl functions and everything they do are not part of this model. This covers reading the network subgraph, filtering subgraphs, computing stakes and signals, new token issuance, `fudgefactor`, the optimizer, grouping, ranking and building strategies. They are uninterpreted `Engine` fields; Ω, ψ, Ψ, Φ and g are folded into `Engine.optimize`.
- The `verbose` log lines: output only.
- Exceptions from the library functions other than `optimize` (`read`, `allocatablesubgraphs`, `pinned`, `availablestake`, `frozen`, `deniedzeroixs`, `groupunique`, `bestprofitpernz`, `sortprofits!`, `strategydict`): they are total functions in the model. A raising `optimize` is the `OptimizerFailed` outcome.
- The subgraph table `fs`: only its deployment IDs are kept, as `Snapshot.subgraphs`.
- The `Dict` rebuilt from `groupunique` (`allocopt.py:183`): its iteration order is folded into `Engine.groupunique`.
- Julia `Float64` arithmetic: plan entries are exact reals or NaN; stakes are exact reals. NaN or infinite stakes are not modelled (a NaN σ would fail `@assert σ > 0`, and a NaN σmax would fail every budget comparison). Rounding in `sum`, infinities, and Julia's summation order are not modelled.
- Broadcasting a singleton: `xs .+ pinnedvec` with a length-1 vector or a one-row plan is not modelled. Any column whose length differs from the pinned vector's gives `ShapeMismatch`.
- Python's `assert` (`allocopt.py:202`) is modelled as enabled. Under `python -O` it vanishes, and `res[0]` then raises on an empty result and silently takes the first of several.
- Float arguments to `grt_decimal_to_wei` (`Decimal(grt_decimal)` of a Python float): amounts are `Decimal` values only.
- Invalid rounding strings: the rounding argument is one of the eight modes or `None`.
- Exponent limits (Emin, Emax, clamping, subnormals, the Overflow signal), the flags a context records, and untrapped signals: at exponent −18 with 78 digits these matter only for integers of about a million digits.
- Thread-locality of the decimal context: a single thread is modelled.
- OptFun.ReportBounds: the bound by the number of groups assumes `sortprofits!` keeps the length of its vector. That function is not part of this model, so the hypothesis is stated as `SortsInPlace`.

=== FILE: allocopt.dfy ===
/** The Python entry point `allocopt`: it normalises the optional subgraph
    lists, builds the configuration for `opt_fun`, insists on exactly one
    reported strategy, and turns that strategy's decimal GRT amounts into a
    map from deployment ID to wei. */
module Allocopt {
  import opened Arith
  import opened Wrappers
  import opened Decimal
  import opened GrtUtils
  import opened Rounding
  import OptFun

  /** The arguments of `allocopt(...)`. */
  datatype Request = Request(
    indexerAddress: string,
    grtGasPerAllocation: real,
    allocationLifetime: int,
    networkSubgraphEndpoint: string,
    maxNewAllocations: int,
    minSignal: int,
    optMode: OptFun.OptMode,
    whitelist: Option<seq<string>>,
    blacklist: Option<seq<string>>,
    pinnedlist: Option<seq<string>>,
    frozenlist: Option<seq<string>>)

  /** A call that leaves the keyword arguments at their defaults:
      `OptMode.OPTIMAL` and no lists. */
  function WithDefaults(indexerAddress: string, gas: real, lifetime: int, endpoint: string,
                        maxNewAllocations: int, minSignal: int): (r: Request)
    ensures r.optMode == OptFun.Optimal
    ensures r.whitelist == r.blacklist == r.pinnedlist == r.frozenlist == None
  {
    Request(indexerAddress, gas, lifetime, endpoint, maxNewAllocations, minSignal,
            OptFun.Optimal, None, None, None, None)
  }

  /** `if not xs: xs = []`: a missing list and an empty one both become the
      empty list, any other list is kept as given. */
  function Normalize(xs: Option<seq<string>>): (r: seq<string>)
    ensures |r| == 0 <==> xs.None? || |xs.value| == 0
    ensures xs.Some? && |xs.value| > 0 ==> r == xs.value
  {
    match xs
    case None => []
    case Some(l) => if |l| == 0 then [] else l
  }

  /** The reported-options count the wrapper always asks for. */
  const NumReportedOptions: int := 1

  /** The configuration dictionary handed to `opt_fun`. */
  function ConfigFor(req: Request): (c: OptFun.Config)
    ensures c.numReportedOptions == 1
    ensures c.maxAllocations == req.maxNewAllocations
    ensures c.id == c.indexerUrl == req.indexerAddress
    ensures c.whitelist == Normalize(req.whitelist) && c.blacklist == Normalize(req.blacklist)
    ensures c.pinnedlist == Normalize(req.pinnedlist) && c.frozenlist == Normalize(req.frozenlist)
    ensures c.verbose && c.readdir.None?
    ensures c.networkSubgraphEndpoint == req.networkSubgraphEndpoint
    ensures c.allocationLifetime == req.allocationLifetime && c.gas == req.grtGasPerAllocation
    ensures c.minSignal == req.minSignal && c.optMode == req.optMode
  {
    OptFun.Config(
      id := req.indexerAddress,
      networkSubgraphEndpoint := req.networkSubgraphEndpoint,
      whitelist := Normalize(req.whitelist),
      blacklist := Normalize(req.blacklist),
      frozenlist := Normalize(req.frozenlist),
      pinnedlist := Normalize(req.pinnedlist),
      allocationLifetime := req.allocationLifetime,
      gas := req.grtGasPerAllocation,
      minSignal := req.minSignal,
      maxAllocations := req.maxNewAllocations,
      numReportedOptions := NumReportedOptions,
      indexerUrl := req.indexerAddress,
      verbose := true,
      optMode := req.optMode,
      readdir := None)
  }

  /** The conversion of one amount that may raise. */
  type Converter = Dec -> Result<int, Raised>

  /** `grt_decimal_to_wei(e["allocationAmount"])`: default rounding, under the
      caller's context `ambient`. */
  function ConvertAmount(ambient: Context): Converter {
    x => GrtDecimalToWei(ambient, x, None).result
  }

  /** The IDs of a strategy's allocations. */
  function Ids(entries: seq<OptFun.Entry>): (ids: set<string>)
    ensures forall i :: 0 <= i < |entries| ==> entries[i].deploymentID in ids
    ensures forall k :: k in ids ==> exists i :: 0 <= i < |entries| && entries[i].deploymentID == k
  {
    set i | 0 <= i < |entries| :: entries[i].deploymentID
  }

  /** The dict comprehension `{e["deploymentID"]: grt_decimal_to_wei(...) for e in res}`:
      entries are converted in order, the first conversion that raises
      aborts the whole map, and a later entry overwrites an earlier one with
      the same ID. */
  function ToWeiMap(convert: Converter, entries: seq<OptFun.Entry>): (r: Result<map<string, int>, Raised>)
    ensures r.Success? <==> forall i :: 0 <= i < |entries| ==> convert(entries[i].allocationAmount).Success?
    ensures r.Success? ==> forall i :: 0 <= i < |entries| ==> entries[i].deploymentID in r.value
    decreases |entries|
  {
    if |entries| == 0 then Success(map[])
    else
      var n := |entries|;
      var init := entries[..n - 1];
      assert forall i :: 0 <= i < n - 1 ==> init[i] == entries[i];
      var prefix :- ToWeiMap(convert, init);
      var w :- convert(entries[n - 1].allocationAmount);
      Success(prefix[entries[n - 1].deploymentID := w])
  }

  /** The keys of a successful map are exactly the IDs of the entries. */
  lemma {:induction false} MapKeysAreIds(convert: Converter, entries: seq<OptFun.Entry>)
    requires ToWeiMap(convert, entries).Success?
    ensures ToWeiMap(convert, entries).value.Keys == Ids(entries)
  {
    if |entries| > 0 {
      var n := |entries|;
      var init := entries[..n - 1];
      MapKeysAreIds(convert, init);
      IdsSnoc(entries);
    }
  }

  lemma IdsSnoc(entries: seq<OptFun.Entry>)
    requires |entries| > 0
    ensures Ids(entries) == Ids(entries[..|entries| - 1]) + {entries[|entries| - 1].deploymentID}
  {
    var init := entries[..|entries| - 1];
    assert forall i :: 0 <= i < |init| ==> init[i] == entries[i];
  }

  /** `i` is the last position holding its ID. */
  predicate LastWithId(entries: seq<OptFun.Entry>, i: int) {
    0 <= i < |entries| &&
    forall j :: i < j < |entries| ==> entries[j].deploymentID != entries[i].deploymentID
  }

  /** Every ID maps to the wei amount of its last occurrence. */
  lemma {:induction false} LastOccurrenceWins(convert: Converter, entries: seq<OptFun.Entry>, i: int)
    requires ToWeiMap(convert, entries).Success?
    requires LastWithId(entries, i)
    ensures ToWeiMap(convert, entries).value[entries[i].deploymentID]
         == convert(entries[i].allocationAmount).value
  {
    var n := |entries|;
    var init := entries[..n - 1];
    assert forall k :: 0 <= k < n - 1 ==> init[k] == entries[k];
    if i < n - 1 {
      assert LastWithId(init, i);
      LastOccurrenceWins(convert, init, i);
    }
  }

  /** The error of a failed map is that of the first entry whose amount does
      not convert; every entry before it converts. */
  lemma {:induction false} FirstConversionErrorWins(convert: Converter, entries: seq<OptFun.Entry>)
    requires ToWeiMap(convert, entries).Failure?
    ensures exists i :: 0 <= i < |entries| &&
              convert(entries[i].allocationAmount) == Failure(ToWeiMap(convert, entries).error) &&
              forall j :: 0 <= j < i ==> convert(entries[j].allocationAmount).Success?
  {
    var n := |entries|;
    var init := entries[..n - 1];
    assert forall k :: 0 <= k < n - 1 ==> init[k] == entries[k];
    if ToWeiMap(convert, init).Failure? {
      FirstConversionErrorWins(convert, init);
      var i :| 0 <= i < |init|
        && convert(init[i].allocationAmount) == Failure(ToWeiMap(convert, init).error)
        && forall j :: 0 <= j < i ==> convert(init[j].allocationAmount).Success?;
      assert entries[i] == init[i];
    } else {
      assert forall j :: 0 <= j < n - 1 ==> convert(entries[j].allocationAmount).Success?;
    }
  }

  /** Each amount in a successful map is the allocation amount rounded to
      whole wei half-even, whatever the caller's decimal context. */
  lemma MapValuesRoundHalfEven(ambient: Context, entries: seq<OptFun.Entry>, i: int)
    requires ToWeiMap(ConvertAmount(ambient), entries).Success?
    requires LastWithId(entries, i)
    ensures entries[i].allocationAmount.Finite?
    ensures ToWeiMap(ConvertAmount(ambient), entries).value[entries[i].deploymentID]
         == WeiRounding(entries[i].allocationAmount, HalfEven)
  {
    LastOccurrenceWins(ConvertAmount(ambient), entries, i);
    ConvertedAmount(ambient, entries[i].allocationAmount);
  }

  /** An amount that converts is finite and becomes its half-even wei rounding. */
  lemma ConvertedAmount(ambient: Context, x: Dec)
    requires ConvertAmount(ambient)(x).Success?
    ensures x.Finite? && ConvertAmount(ambient)(x).value == WeiRounding(x, HalfEven)
  {
    var s := GrtDecimalToWei(ambient, x, None);
    assert ConvertAmount(ambient)(x) == s.result;
    NonFiniteFails(ambient, x, None);
    assert None.GetOr(HalfEven) == HalfEven;
  }

  /** Conversions that agree on every amount build the same map. */
  lemma {:induction false} ToWeiMapAgrees(c1: Converter, c2: Converter, entries: seq<OptFun.Entry>)
    requires forall x :: c1(x) == c2(x)
    ensures ToWeiMap(c1, entries) == ToWeiMap(c2, entries)
  {
    if |entries| > 0 {
      ToWeiMapAgrees(c1, c2, entries[..|entries| - 1]);
    }
  }

  /** The map does not depend on the caller's decimal context. */
  lemma ToWeiMapAmbientIrrelevant(a1: Context, a2: Context, entries: seq<OptFun.Entry>)
    ensures ToWeiMap(ConvertAmount(a1), entries) == ToWeiMap(ConvertAmount(a2), entries)
  {
    forall x | true
      ensures ConvertAmount(a1)(x) == ConvertAmount(a2)(x)
    {
      AmbientIrrelevant(a1, a2, 0, x, None);
    }
    ToWeiMapAgrees(ConvertAmount(a1), ConvertAmount(a2), entries);
  }

  datatype Outcome =
    | OptFunFailed(failure: OptFun.Outcome)  // `opt_fun` raised
    | WrongStrategyCount(count: nat)   // `assert len(res) == 1` failed
    | ConversionError(error: Raised)   // `grt_decimal_to_wei` raised
    | Allocations(wei: map<string, int>)

  /** `allocopt(...)`: the map from deployment ID to wei of the one strategy
      `opt_fun` reports, or the first error on the way. Every failure of
      `opt_fun` propagates unchanged; a report of any other length than one
      fails the assertion; otherwise the map is returned exactly when every
      amount converts, and the first conversion error is raised when not. */
  function Run(req: Request, e: OptFun.Engine, ambient: Context): (o: Outcome)
    ensures o == OptFunFailed(OptFun.NoStake) <==> OptFun.FreeStake(e.snapshot(ConfigFor(req))) <= 0.0
    ensures o.OptFunFailed? && o.failure.BudgetExceeded? ==> o.failure.overflow > 0.0
    ensures var res := OptFun.Run(e, ConfigFor(req));
      && (o.OptFunFailed? <==> !res.Strategies?)
      && (!res.Strategies? ==> o == OptFunFailed(res))
      && (res.Strategies? && |res.strategies| != 1 ==> o == WrongStrategyCount(|res.strategies|))
      && (res.Strategies? && |res.strategies| == 1 ==>
            var wei := ToWeiMap(ConvertAmount(ambient), res.strategies[0].allocations);
            && (wei.Success? ==> o == Allocations(wei.value))
            && (wei.Failure? ==> o == ConversionError(wei.error)))
    ensures o.Allocations? ==>
      var res := OptFun.Run(e, ConfigFor(req));
      && res.Strategies? && |res.strategies| == 1
      && ToWeiMap(ConvertAmount(ambient), res.strategies[0].allocations) == Success(o.wei)
  {
    var res := OptFun.Run(e, ConfigFor(req));
    if !res.Strategies? then OptFunFailed(res)
    else if |res.strategies| != 1 then WrongStrategyCount(|res.strategies|)
    else
      match ToWeiMap(ConvertAmount(ambient), res.strategies[0].allocations)
      case Failure(err) => ConversionError(err)
      case Success(wei) => Allocations(wei)
  }

  /** With one reported option `opt_fun` never reports two strategies, so the
      length assertion fails only when there was no candidate to report. */
  lemma StrategyCountFailsOnlyWhenEmpty(req: Request, e: OptFun.Engine, ambient: Context)
    requires Run(req, e, ambient).WrongStrategyCount?
    ensures Run(req, e, ambient).count == 0
    ensures |OptFun.RankedCandidates(e, OptFun.Plan(e, ConfigFor(req)).value)| == 0
  {
  }

  /** A returned map comes from the single best-ranked candidate, built from
      the plan with the pinned stake added back, and every column of that
      plan sums to NaN or to at most available − frozen. */
  lemma AllocationsRespectBudget(req: Request, e: OptFun.Engine, ambient: Context)
    requires Run(req, e, ambient).Allocations?
    ensures var config := ConfigFor(req);
      var snap := e.snapshot(config);
      && OptFun.Plan(e, config).Some?
      && var sol := OptFun.Plan(e, config).value;
      && OptFun.AddBack(sol.xs, sol.rows, snap.pinned).Some?
      && var back := OptFun.AddBack(sol.xs, sol.rows, snap.pinned).value;
      && (forall j :: 0 <= j < |sol.xs| ==>
            OptFun.WithinBudget(OptFun.ColumnSum(back[j]), snap.available - snap.frozen))
      && |OptFun.RankedCandidates(e, sol)| >= 1
      && ToWeiMap(ConvertAmount(ambient),
                  e.strategydict(OptFun.RankedCandidates(e, sol)[0], back, sol.nonzeros,
                                 snap.subgraphs, sol.profits).allocations)
         == Success(Run(req, e, ambient).wei)
  {
  }

  /** The outcome does not depend on the caller's decimal context. */
  lemma AmbientContextIrrelevant(req: Request, e: OptFun.Engine, a1: Context, a2: Context)
    ensures Run(req, e, a1) == Run(req, e, a2)
  {
    var res := OptFun.Run(e, ConfigFor(req));
    if res.Strategies? && |res.strategies| == 1 {
      ToWeiMapAmbientIrrelevant(a1, a2, res.strategies[0].allocations);
    }
  }
}

=== FILE: arith.dfy ===
/** Integer facts about powers of ten and decimal digit counts. */
module Arith {

  function Abs(x: int): nat {
    if x < 0 then -x else x
  }

  function Min(a: int, b: int): int {
    if a <= b then a else b
  }

  function Pow10(n: nat): (r: nat)
    ensures r >= 1
  {
    if n == 0 then 1 else 10 * Pow10(n - 1)
  }

  /** Number of decimal digits of `n`, as `len(str(n))` counts them (so 0 has one). */
  function NumDigits(n: nat): (r: nat)
    ensures r >= 1
  {
    if n < 10 then 1 else 1 + NumDigits(n / 10)
  }

  lemma {:induction false} Pow10Add(a: nat, b: nat)
    ensures Pow10(a + b) == Pow10(a) * Pow10(b)
  {
    if a > 0 {
      Pow10Add(a - 1, b);
      assert Pow10(a + b) == 10 * Pow10(a - 1 + b);
    }
  }

  lemma {:induction false} Pow10Monotone(a: nat, b: nat)
    requires a <= b
    ensures Pow10(a) <= Pow10(b)
    ensures a < b ==> 10 * Pow10(a) <= Pow10(b)
  {
    if a < b {
      Pow10Monotone(a, b - 1);
    }
  }

  /** The digit count brackets the number: 10^(D-1) <= n < 10^D. */
  lemma {:induction false} NumDigitsBounds(n: nat)
    ensures n < Pow10(NumDigits(n))
    ensures n >= 1 ==> Pow10(NumDigits(n) - 1) <= n
  {
    if n >= 10 {
      NumDigitsBounds(n / 10);
    }
  }

  /** `n` fits in `p` digits exactly when it is below 10^p. */
  lemma FitsInDigits(n: nat, p: nat)
    requires p >= 1
    ensures NumDigits(n) <= p <==> n < Pow10(p)
  {
    NumDigitsBounds(n);
    if NumDigits(n) <= p {
      Pow10Monotone(NumDigits(n), p);
    } else {
      Pow10Monotone(p, NumDigits(n) - 1);
    }
  }

  lemma {:induction false} NumDigitsOfPow10(n: nat)
    ensures NumDigits(Pow10(n)) == n + 1
  {
    if n > 0 {
      NumDigitsOfPow10(n - 1);
      assert Pow10(n) / 10 == Pow10(n - 1);
    }
  }

  /** Appending `k` zeros adds `k` digits to a nonzero number. */
  lemma {:induction false} NumDigitsShift(n: nat, k: nat)
    requires n >= 1
    ensures NumDigits(n * Pow10(k)) == NumDigits(n) + k
  {
    if k > 0 {
      NumDigitsShift(n, k - 1);
      assert n * Pow10(k) == 10 * (n * Pow10(k - 1));
      assert (n * Pow10(k)) / 10 == n * Pow10(k - 1);
    }
  }

  lemma MulDivCancel(a: int, b: int)
    requires b > 0
    ensures (a * b) / b == a
    ensures (a * b) % b == 0
  {
    var q, r := (a * b) / b, (a * b) % b;
    assert (a - q) * b == r;
    MulCancel(a - q, 0, b);
  }

  /** Cancelling a positive factor from a strict inequality. */
  lemma MulStrictCancel(a: int, b: int, d: int)
    requires d > 0
    requires a * d < b * d
    ensures a < b
  {
    assert (b - a) * d > 0;
  }

  lemma MulCancel(a: int, b: int, d: int)
    requires d > 0
    requires a * d == b * d
    ensures a == b
  {
    assert (a - b) * d == 0;
  }

  /** Removing `k` trailing zeros from a number below 10^(p+k) leaves one below 10^p. */
  lemma ShiftedBelow(c: nat, p: nat, k: nat)
    requires c * Pow10(k) < Pow10(p + k)
    ensures c < Pow10(p)
  {
    Pow10Add(p, k);
    MulStrictCancel(c, Pow10(p), Pow10(k));
  }

  lemma ShiftedAtLeast(c: nat, k: nat)
    ensures c <= c * Pow10(k)
  {
  }

  /** A number of at least 10^p shifted left by one digit or more reaches 10^(p+1). */
  lemma ScaledAtLeast(c: nat, p: nat, t: nat)
    requires c >= Pow10(p) && t >= 1
    ensures c * Pow10(t) >= Pow10(p + 1)
  {
    var a := Pow10(t);
    var b := Pow10(p);
    Pow10Monotone(1, t);
    Pow10Add(p, 1);
    assert Pow10(1) == 10;
    MulMonotone(b, c, a);
    MulMonotone(10, a, b);
  }

  lemma MulMonotone(x: nat, y: nat, z: nat)
    requires x <= y
    ensures x * z <= y * z
  {
    assert (y - x) * z >= 0;
  }

  /** Powers of ten up to the 78 digits of the GRT precision, built from
      smaller ones with `Pow10Add`. */
  lemma Pow10Of7()
    ensures Pow10(7) == 10000000
  {
  }

  lemma Pow10Of14()
    ensures Pow10(14) == 100000000000000
  {
    Pow10Of7();
    Pow10Add(7, 7);
  }

  lemma Pow10Of28()
    ensures Pow10(28) == 10000000000000000000000000000
  {
    Pow10Of14();
    Pow10Add(14, 14);
  }

  lemma Pow10Of56()
    ensures Pow10(56) == 100000000000000000000000000000000000000000000000000000000
  {
    Pow10Of28();
    Pow10Add(28, 28);
  }

  lemma Pow10Of70()
    ensures Pow10(70) == 10000000000000000000000000000000000000000000000000000000000000000000000
  {
    Pow10Of56();
    Pow10Of14();
    Pow10Add(56, 14);
  }

  lemma Pow10Of77()
    ensures Pow10(77) == 100000000000000000000000000000000000000000000000000000000000000000000000000000
  {
    Pow10Of70();
    Pow10Of7();
    Pow10Add(70, 7);
  }

  lemma Pow10Of78()
    ensures Pow10(78) == 1000000000000000000000000000000000000000000000000000000000000000000000000000000
  {
    Pow10Of77();
    Pow10Add(77, 1);
  }
}

=== FILE: decimal.dfy ===
/** The part of Python's `decimal` arithmetic the GRT codec relies on, following
    the General Decimal Arithmetic Specification that the module implements:
    a number is a sign, an integer coefficient and a power-of-ten exponent. */
module Decimal {
  import opened Arith
  import opened Rounding
  import opened Wrappers

  /** Python refuses a context precision below one digit. */
  type Precision = p: nat | p >= 1 witness 1

  /** The value-relevant part of a `decimal.Context`: precision and rounding.
      Exponent limits, traps and flags are left out. */
  datatype Context = Context(prec: Precision, rounding: Mode)

  /** `decimal.DefaultContext`: 28 digits, half-even. */
  const DefaultContext := Context(28, HalfEven)

  /** A `decimal.Decimal`: (-1)^sign * coef * 10^exp, or a special value. */
  datatype Dec =
    | Finite(sign: bool, coef: nat, exp: int)
    | Infinity(sign: bool)
    | NaN(signaling: bool)

  /** The exceptions the modelled operations raise: the trapped
      `InvalidOperation` signal, and `int()`'s `ValueError` (NaN) and
      `OverflowError` (infinity). */
  datatype Raised = InvalidOperation | ValueError | OverflowError

  /** The integer (-1)^sign * c. */
  function Signed(sign: bool, c: nat): int {
    if sign then -(c as int) else c
  }

  function SignedCoef(x: Dec): int
    requires x.Finite?
  {
    Signed(x.sign, x.coef)
  }

  /** `Decimal(n)` for a Python `int`: exact, exponent 0. */
  function FromInt(n: int): (x: Dec)
    ensures x.Finite? && SignedCoef(x) == n && x.exp == 0
  {
    Finite(n < 0, Abs(n), 0)
  }

  /** `x` has the value n * 10^-k. */
  ghost predicate ValueIs(x: Dec, n: int, k: int) {
    x.Finite? &&
    var s := x.exp + k;
    if s >= 0 then SignedCoef(x) * Pow10(s) == n else SignedCoef(x) == n * Pow10(-s)
  }

  lemma SignedScale(sign: bool, c: nat, p: nat)
    ensures Signed(sign, c) * p == Signed(sign, c * p)
  {
    if sign {
      assert -(c as int) * p == -(c * p);
    }
  }

  /** The magnitude left when `k` low digits of (-1)^sign * c are rounded off under `m`. */
  function RoundOff(sign: bool, c: nat, k: nat, m: Mode): nat {
    Abs(RoundDiv(Signed(sign, c), Pow10(k), m))
  }

  /** Rounding a coefficient to the context precision (`Decimal._fix`,
      exponent limits aside): when `c` has more than `prec` digits, the excess
      low digits are rounded off under the context's mode, and a carry to
      10^prec drops one more zero. */
  function Fix(sign: bool, c: nat, e: int, ctx: Context): (r: Dec)
    ensures r.Finite? && r.sign == sign
    ensures NumDigits(r.coef) <= ctx.prec
    ensures NumDigits(c) <= ctx.prec ==> r == Finite(sign, c, e)
    ensures NumDigits(c) > ctx.prec ==>
      var k := NumDigits(c) - ctx.prec;
      && r.exp >= e + k
      && Signed(sign, r.coef) * Pow10(r.exp - e - k) == RoundDiv(Signed(sign, c), Pow10(k), ctx.rounding)
  {
    if NumDigits(c) <= ctx.prec then Finite(sign, c, e)
    else
      var k := NumDigits(c) - ctx.prec;
      var q := RoundOff(sign, c, k, ctx.rounding);
      FixedDigits(sign, c, k, ctx);
      SignedRoundOff(sign, c, k, ctx.rounding);
      if q == Pow10(ctx.prec) then
        NumDigitsOfPow10(ctx.prec - 1);
        assert Pow10(ctx.prec) / 10 == Pow10(ctx.prec - 1);
        assert Signed(sign, q / 10) * 10 == Signed(sign, q);
        Finite(sign, q / 10, e + k + 1)
      else
        FitsInDigits(q, ctx.prec);
        Finite(sign, q, e + k)
  }

  /** The rounded magnitude, given the sign back, is the rounded quotient:
      no mode changes the sign. */
  lemma SignedRoundOff(sign: bool, c: nat, k: nat, m: Mode)
    ensures Signed(sign, RoundOff(sign, c, k, m)) == RoundDiv(Signed(sign, c), Pow10(k), m)
  {
    RoundDivSign(Signed(sign, c), Pow10(k), m);
  }

  /** Rounding away `k` low digits of a number with `prec + k` digits leaves at
      most 10^prec. */
  lemma FixedDigits(sign: bool, c: nat, k: nat, ctx: Context)
    requires NumDigits(c) == ctx.prec + k
    ensures RoundOff(sign, c, k, ctx.rounding) <= Pow10(ctx.prec)
  {
    NumDigitsBounds(c);
    Pow10Add(ctx.prec, k);
    RoundDivBoundsMagnitude(Signed(sign, c), Pow10(k), ctx.rounding, Pow10(ctx.prec));
  }

  /** When `Fix` has to round, the result keeps a full `prec` digits and its
      exponent grows by at least one. */
  lemma FixRoundsLarge(sign: bool, c: nat, e: int, ctx: Context)
    requires NumDigits(c) > ctx.prec
    ensures var r := Fix(sign, c, e, ctx); r.coef >= Pow10(ctx.prec - 1) && r.exp >= e + 1
  {
    var k := NumDigits(c) - ctx.prec;
    var q := RoundOff(sign, c, k, ctx.rounding);
    RoundOffKeepsDigits(sign, c, k, ctx.prec, ctx.rounding);
    if q == Pow10(ctx.prec) {
      assert Pow10(ctx.prec) / 10 == Pow10(ctx.prec - 1);
    }
  }

  /** Rounding `k` digits off a positive number of `p + k` digits leaves at least 10^(p-1). */
  lemma RoundOffKeepsDigits(sign: bool, c: nat, k: nat, p: nat, m: Mode)
    requires c >= 1 && p >= 1 && NumDigits(c) == p + k
    ensures RoundOff(sign, c, k, m) >= Pow10(p - 1)
  {
    NumDigitsBounds(c);
    Pow10Add(p - 1, k);
    assert c >= Pow10(p - 1 + k);
    assert Abs(Signed(sign, c)) == c;
    RoundDivKeepsMagnitude(Signed(sign, c), Pow10(k), m, Pow10(p - 1));
  }

  /** When the digits `Fix` rounds off are all zeros, it only drops them. */
  lemma FixDropsZeros(sign: bool, c: nat, e: int, ctx: Context, k: nat, c': nat)
    requires NumDigits(c) == ctx.prec + k && k >= 1
    requires c == c' * Pow10(k)
    ensures Fix(sign, c, e, ctx) == Finite(sign, c', e + k)
  {
    RoundOffShifted(sign, c', k, ctx.rounding);
    NumDigitsBounds(c);
    ShiftedBelow(c', ctx.prec, k);
  }

  /** Rounding off `k` digits that are all zeros is exact in every mode. */
  lemma RoundOffShifted(sign: bool, c: nat, k: nat, m: Mode)
    ensures RoundOff(sign, c * Pow10(k), k, m) == c
  {
    var p := Pow10(k);
    var n := Signed(sign, c);
    SignedScale(sign, c, p);
    RoundDivExact(n, p, m);
    assert RoundDiv(Signed(sign, c * p), p, m) == n;
  }

  /** Strips trailing zeros while the exponent is below `ideal`: the exact
      quotient of a division is given the exponent closest to the ideal one. */
  function Reduce(c: nat, e: int, ideal: int): (r: (nat, int))
    ensures e <= r.1 && (r.1 <= ideal || r.1 == e)
    ensures c == r.0 * Pow10(r.1 - e)
    ensures r.1 < ideal ==> r.0 % 10 != 0
    decreases ideal - e
  {
    if e < ideal && c % 10 == 0 then
      var r := Reduce(c / 10, e + 1, ideal);
      assert Pow10(r.1 - e) == 10 * Pow10(r.1 - (e + 1));
      r
    else (c, e)
  }

  /** A coefficient that does not end in zero is already reduced. */
  lemma ReduceStops(c: nat, e: int, ideal: int)
    requires c % 10 != 0
    ensures Reduce(c, e, ideal) == (c, e)
  {
  }

  /** `a / Decimal(10**k)`, the only division the codec performs: the quotient
      is exact, takes the exponent nearest the ideal one (that of `a`), and is
      then rounded to the context precision. */
  function DivPow10(a: Dec, k: nat, ctx: Context): (r: Result<Dec, Raised>)
    ensures a.NaN? ==> r == (if a.signaling then Failure(InvalidOperation) else Success(a))
    ensures a.Infinity? ==> r == Success(a)
    ensures a.Finite? ==>
      r.Success? && r.value.Finite? && r.value.sign == a.sign && NumDigits(r.value.coef) <= ctx.prec
    ensures a.Finite? && NumDigits(a.coef) <= ctx.prec ==>
      && a.exp - k <= r.value.exp <= a.exp
      && a.coef == r.value.coef * Pow10(r.value.exp - (a.exp - k))
      && (r.value.exp < a.exp ==> r.value.coef % 10 != 0)
  {
    match a
    case NaN(signaling) => if signaling then Failure(InvalidOperation) else Success(a)
    case Infinity(s) => Success(Infinity(s))
    case Finite(s, c, e) =>
      var r := Reduce(c, e - k, e);
      ReducedFits(c, r.0, r.1 - (e - k), ctx.prec);
      Success(Fix(s, r.0, r.1, ctx))
  }

  /** Stripping zeros never lengthens a number. */
  lemma ReducedFits(c: nat, c': nat, t: nat, p: nat)
    requires c == c' * Pow10(t) && p >= 1
    ensures NumDigits(c) <= p ==> NumDigits(c') <= p
  {
    ShiftedAtLeast(c', t);
    FitsInDigits(c, p);
    FitsInDigits(c', p);
  }

  /** `Decimal.quantize(Decimal(1).scaleb(t), rounding, ctx)`: rescales `x` to
      exponent `t`, rounding under `m`, and signals `InvalidOperation` for an
      infinity, a signalling NaN, or a result needing more than `prec` digits. */
  function Quantize(x: Dec, t: int, m: Mode, ctx: Context): (r: Result<Dec, Raised>)
    ensures x.Infinity? ==> r == Failure(InvalidOperation)
    ensures x.NaN? ==> r == (if x.signaling then Failure(InvalidOperation) else Success(x))
    ensures x.Finite? ==> (r.Success? <==> Rescale(x, t, m) < Pow10(ctx.prec))
    ensures x.Finite? && r.Success? ==> r.value == Finite(x.sign, Rescale(x, t, m), t)
    ensures x.Finite? && r.Failure? ==> r.error == InvalidOperation
  {
    match x
    case NaN(signaling) => if signaling then Failure(InvalidOperation) else Success(x)
    case Infinity(_) => Failure(InvalidOperation)
    case Finite(s, c, e) =>
      if c == 0 then
        RoundDivExact(0, Pow10(if e >= t then 0 else t - e), m);
        Success(Fix(s, 0, t, ctx))
      else
        var q := Rescale(x, t, m);
        FitsInDigits(q, ctx.prec);
        if NumDigits(q) > ctx.prec then Failure(InvalidOperation)
        else Success(Fix(s, q, t, ctx))
  }

  /** The coefficient of a finite `x` moved to exponent `t`: padded with zeros
      when `t` is at or below the exponent, otherwise rounded under `m`. */
  function Rescale(x: Dec, t: int, m: Mode): (q: nat)
    requires x.Finite?
    ensures x.exp >= t ==> Signed(x.sign, q) == SignedCoef(x) * Pow10(x.exp - t)
    ensures x.exp < t ==> IsRounded(SignedCoef(x), Pow10(t - x.exp), m, Signed(x.sign, q))
  {
    if x.exp >= t then
      SignedScale(x.sign, x.coef, Pow10(x.exp - t));
      x.coef * Pow10(x.exp - t)
    else
      SignedRoundOff(x.sign, x.coef, t - x.exp, m);
      RoundDivIsRounded(SignedCoef(x), Pow10(t - x.exp), m);
      RoundOff(x.sign, x.coef, t - x.exp, m)
  }

  function IsZero(x: Dec): bool {
    x.Finite? && x.coef == 0
  }

  /** `a * b` in context `ctx`. */
  function Multiply(a: Dec, b: Dec, ctx: Context): (r: Result<Dec, Raised>)
    ensures (a.NaN? && a.signaling) || (b.NaN? && b.signaling) ==> r == Failure(InvalidOperation)
    ensures a.Finite? && b.Finite? ==>
      && r.Success? && r.value.Finite? && r.value.sign == (a.sign != b.sign)
      && NumDigits(r.value.coef) <= ctx.prec
      && (NumDigits(a.coef * b.coef) <= ctx.prec ==>
            r.value.coef == a.coef * b.coef && r.value.exp == a.exp + b.exp)
    ensures !a.NaN? && !b.NaN? && (a.Infinity? || b.Infinity?) ==>
      && (r.Failure? <==> IsZero(a) || IsZero(b))
      && (r.Success? ==> r.value == Infinity(a.sign != b.sign))
  {
    if (a.NaN? && a.signaling) || (b.NaN? && b.signaling) then Failure(InvalidOperation)
    else if a.NaN? then Success(a)
    else if b.NaN? then Success(b)
    else if a.Infinity? || b.Infinity? then
      if IsZero(a) || IsZero(b) then Failure(InvalidOperation)
      else Success(Infinity(a.sign != b.sign))
    else Success(Fix(a.sign != b.sign, a.coef * b.coef, a.exp + b.exp, ctx))
  }

  /** The product of two finite numbers multiplies the coefficients, adds the
      exponents and takes the exclusive-or of the signs before rounding. */
  lemma MultiplyFinite(a: Dec, b: Dec, ctx: Context)
    requires a.Finite? && b.Finite?
    ensures Multiply(a, b, ctx) == Success(Fix(a.sign != b.sign, a.coef * b.coef, a.exp + b.exp, ctx))
  {
  }

  /** `int(x)`: truncates toward zero; NaN raises `ValueError`, an infinity `OverflowError`. */
  function ToInt(x: Dec): (r: Result<int, Raised>)
    ensures x.NaN? ==> r == Failure(ValueError)
    ensures x.Infinity? ==> r == Failure(OverflowError)
    ensures x.Finite? ==> r.Success? && r.value == Signed(x.sign, Abs(r.value))
    ensures x.Finite? && x.exp >= 0 ==> Abs(r.value) == x.coef * Pow10(x.exp)
    ensures x.Finite? && x.exp < 0 ==> WholePart(x.coef, Pow10(-x.exp), Abs(r.value))
  {
    match x
    case NaN(_) => Failure(ValueError)
    case Infinity(_) => Failure(OverflowError)
    case Finite(s, c, e) =>
      var m := WholeUnits(c, e);
      AbsSigned(s, m);
      Success(Signed(s, m))
  }

  /** The whole number c * 10^e: exact when e >= 0, the whole part of the
      quotient otherwise. */
  function WholeUnits(c: nat, e: int): (m: nat)
    ensures e >= 0 ==> m == c * Pow10(e)
    ensures e < 0 ==> WholePart(c, Pow10(-e), m)
  {
    if e >= 0 then c * Pow10(e) else WholeQuotient(c, Pow10(-e))
  }

  /** Integer division by `p` keeps the whole units of `c`. */
  function WholeQuotient(c: nat, p: nat): (m: nat)
    requires p >= 1
    ensures WholePart(c, p, m)
  {
    Truncated(c, p);
    c / p
  }

  lemma Truncated(c: nat, p: nat)
    requires p >= 1
    ensures WholePart(c, p, c / p)
  {
    FloorFacts(c, p);
  }

  /** `m` is the whole number of units `p` in `c`. */
  ghost predicate WholePart(c: nat, p: nat, m: nat) {
    m * p <= c < m * p + p
  }

  lemma AbsSigned(s: bool, m: nat)
    ensures Abs(Signed(s, m)) == m && Signed(s, Abs(Signed(s, m))) == Signed(s, m)
  {
  }
}

=== FILE: grt_utils.dfy ===
/** The GRT fixed-point codec: integer wei <-> 18-decimal token amounts,
    computed under a scoped 78-digit decimal context. */
module GrtUtils {
  import opened Arith
  import opened Rounding
  import opened Wrappers
  import opened Decimal

  /** GRT has 18 decimals. */
  const GrtDecimals: nat := 18

  /** The GRT context's precision: enough digits for any 256-bit integer. */
  const GrtPrecision: nat := 78

  /** `_GRT_DECIMAL_CONTEXT = Context(prec=78)`: the fields not given are copied
      from `DefaultContext`, so its rounding is half-even. */
  const GrtContext := Context(GrtPrecision, HalfEven)

  /** `_GRT_DECIMAL_FACTOR = Decimal(10) ** Decimal(18)`, exactly 10^18. */
  const GrtFactor := Finite(false, Pow10(GrtDecimals), 0)

  /** The largest 256-bit unsigned integer, 2^256 - 1. */
  const MaxUint256: nat := 115792089237316195423570985008687907853269984665640564039457584007913129639935

  /** The outcome of a block run under the GRT context, and the thread's
      current context once the block has been left. */
  datatype Scoped<T> = Scoped(result: Result<T, Raised>, after: Context)

  /** `with _grt_decimal_context(): ...`. The body runs with the GRT context
      current and reports its result together with the context it left
      current (it may raise, or swap the context itself); leaving the block
      sets the saved context back on both exits. */
  function WithGrtContext<T>(ambient: Context, body: Context -> (Result<T, Raised>, Context)): (s: Scoped<T>)
    ensures s.after == ambient
    ensures s.result == body(GrtContext).0
  {
    var initial := ambient;
    var inside := body(GrtContext);
    Scoped(inside.0, initial)
  }

  /** x is w * 10^-18 after w is rounded to `p` significant digits under `m`:
      with k = digits(|w|) - p low digits dropped, ±coef * 10^(exp + 18 - k)
      is RoundDiv(w, 10^k, m). */
  ghost predicate RoundedWei(x: Dec, w: int, p: nat, m: Mode) {
    && x.Finite? && NumDigits(Abs(w)) > p
    && var k := NumDigits(Abs(w)) - p;
      && x.exp + 18 >= k
      && SignedCoef(x) * Pow10(x.exp + 18 - k) == RoundDiv(w, Pow10(k), m)
  }

  /** The body of `grt_wei_to_decimal`: `Decimal(grt_wei) / _GRT_DECIMAL_FACTOR`
      in `ctx`. The quotient is w * 10^-18 exactly when w fits the context's
      precision; otherwise it is w rounded to `prec` significant digits under
      the context's rounding, then scaled by 10^-18. */
  function WeiToDecimalIn(ctx: Context, w: int): (r: Result<Dec, Raised>)
    ensures r.Success? && r.value.Finite? && r.value.sign == (w < 0)
    ensures NumDigits(r.value.coef) <= ctx.prec
    ensures NumDigits(Abs(w)) <= ctx.prec ==> ValueIs(r.value, w, 18)
    ensures NumDigits(Abs(w)) > ctx.prec ==> RoundedWei(r.value, w, ctx.prec, ctx.rounding)
  {
    DividedWei(ctx, w);
    DivPow10(FromInt(w), GrtDecimals, ctx)
  }

  /** `1 / _GRT_DECIMAL_FACTOR` in `ctx`: the quantum 10^-18, in every context. */
  function Quantum(ctx: Context): (r: Result<Dec, Raised>)
    ensures r == Success(Finite(false, 1, -18))
  {
    assert Reduce(1, -18, 0) == (1, -18);
    DivPow10(FromInt(1), GrtDecimals, ctx)
  }

  /** The body of `grt_decimal_to_wei`: quantize to the quantum (with the
      given rounding, or the current context's when `None`), multiply by the
      factor, and truncate with `int()`. In any context a finite amount
      converts to x * 10^18 rounded under that mode when the result fits the
      context's precision, and raises `InvalidOperation` when it does not. */
  function DecimalToWeiIn(ctx: Context, x: Dec, rounding: Option<Mode>): (r: Result<int, Raised>)
    ensures x.Finite? ==>
      (r.Success? <==> Abs(WeiRounding(x, rounding.GetOr(ctx.rounding))) < Pow10(ctx.prec))
    ensures x.Finite? && r.Success? ==> r.value == WeiRounding(x, rounding.GetOr(ctx.rounding))
    ensures x.Finite? && r.Failure? ==> r.error == InvalidOperation
    ensures x == NaN(false) ==> r == Failure(ValueError)
    ensures x.Infinity? || x == NaN(true) ==> r == Failure(InvalidOperation)
  {
    var m := rounding.GetOr(ctx.rounding);
    ConvertsFinite(ctx, x, m);
    var quantum := Quantum(ctx).value;
    var q :- Quantize(x, quantum.exp, m, ctx);
    var p := Multiply(q, GrtFactor, ctx).value;
    ToInt(p)
  }

  /** x * 10^18 as the exact ratio ScaledNumerator / ScaledDenominator. */
  function ScaledNumerator(x: Dec): int
    requires x.Finite?
  {
    if x.exp >= -18 then SignedCoef(x) * Pow10(x.exp + 18) else SignedCoef(x)
  }

  function ScaledDenominator(x: Dec): (d: nat)
    requires x.Finite?
    ensures d >= 1
  {
    if x.exp >= -18 then 1 else Pow10(-18 - x.exp)
  }

  /** Reference meaning of the conversion: x * 10^18 rounded to an integer under `m`. */
  function WeiRounding(x: Dec, m: Mode): int
    requires x.Finite?
  {
    RoundDiv(ScaledNumerator(x), ScaledDenominator(x), m)
  }

  /** `grt_wei_to_decimal`: exact whenever |w| < 10^78, the value always fits
      the 78-digit precision, and the caller's context is restored. */
  function GrtWeiToDecimal(ambient: Context, w: int): (s: Scoped<Dec>)
    ensures s.after == ambient
    ensures s.result.Success? && s.result.value.Finite?
    ensures NumDigits(s.result.value.coef) <= GrtPrecision
    ensures Abs(w) < Pow10(GrtPrecision) ==> ValueIs(s.result.value, w, 18)
    ensures Abs(w) >= Pow10(GrtPrecision) ==> RoundedWei(s.result.value, w, GrtPrecision, HalfEven)
  {
    WeiDigitsAgainstPrecision(GrtContext, w);
    WithGrtContext(ambient, ctx => (WeiToDecimalIn(ctx, w), ctx))
  }

  /** `WeiToDecimalIn` with the digit count of w stated against 10^prec. */
  lemma WeiDigitsAgainstPrecision(ctx: Context, w: int)
    ensures var x := WeiToDecimalIn(ctx, w).value;
      && (Abs(w) < Pow10(ctx.prec) ==> ValueIs(x, w, 18))
      && (Abs(w) >= Pow10(ctx.prec) ==> RoundedWei(x, w, ctx.prec, ctx.rounding))
  {
    FitsInDigits(Abs(w), ctx.prec);
  }

  /** `grt_decimal_to_wei`: for a finite amount, succeeds exactly when
      x * 10^18 rounded under the effective mode has fewer than 79 digits,
      and then returns that rounded integer; otherwise `quantize` raises
      `InvalidOperation`. A quiet NaN reaches `int()` and raises `ValueError`;
      an infinity or a signalling NaN is refused by `quantize`. The effective
      mode is the given one, or the GRT context's half-even when `None`. */
  function GrtDecimalToWei(ambient: Context, x: Dec, rounding: Option<Mode>): (s: Scoped<int>)
    ensures s.after == ambient
    ensures x.Finite? ==>
      (s.result.Success? <==> Abs(WeiRounding(x, rounding.GetOr(HalfEven))) < Pow10(GrtPrecision))
    ensures x.Finite? && s.result.Success? ==> s.result.value == WeiRounding(x, rounding.GetOr(HalfEven))
    ensures x.Finite? && s.result.Failure? ==> s.result.error == InvalidOperation
    ensures x == NaN(false) ==> s.result == Failure(ValueError)
    ensures x.Infinity? || x == NaN(true) ==> s.result == Failure(InvalidOperation)
  {
    WithGrtContext(ambient, ctx => (DecimalToWeiIn(ctx, x, rounding), ctx))
  }

  /** Only a finite amount converts. */
  lemma NonFiniteFails(ambient: Context, x: Dec, rounding: Option<Mode>)
    ensures !x.Finite? ==> GrtDecimalToWei(ambient, x, rounding).result.Failure?
  {
    if !x.Finite? {
      assert x == NaN(false) || x.Infinity? || x == NaN(true);
    }
  }

  /** The division by the factor reduces the exact quotient w * 10^-18 and fixes it. */
  lemma WeiToDecimalSteps(w: int, ctx: Context)
    ensures var red := Reduce(Abs(w), -18, 0);
      WeiToDecimalIn(ctx, w) == Success(Fix(w < 0, red.0, red.1, ctx))
  {
    assert FromInt(w) == Finite(w < 0, Abs(w), 0);
    assert WeiToDecimalIn(ctx, w) == DivPow10(FromInt(w), GrtDecimals, ctx);
  }

  /** A coefficient c with |w| == c * 10^s, s >= 0, denotes w at scale s. */
  lemma ShiftedCoefficient(w: int, c: nat, e: int)
    requires e + 18 >= 0 && Abs(w) == c * Pow10(e + 18)
    ensures c <= Abs(w)
    ensures ValueIs(Finite(w < 0, c, e), w, 18)
  {
    var p := Pow10(e + 18);
    ShiftedAtLeast(c, e + 18);
    SignedScale(w < 0, c, p);
  }

  /** The division of a wei amount by the factor, as `WeiToDecimalIn` states it. */
  lemma DividedWei(ctx: Context, w: int)
    ensures var r := DivPow10(FromInt(w), GrtDecimals, ctx);
      && (NumDigits(Abs(w)) <= ctx.prec ==> ValueIs(r.value, w, 18))
      && (NumDigits(Abs(w)) > ctx.prec ==> RoundedWei(r.value, w, ctx.prec, ctx.rounding))
  {
    var red := Reduce(Abs(w), -18, 0);
    assert DivPow10(FromInt(w), GrtDecimals, ctx) == Success(Fix(w < 0, red.0, red.1, ctx));
    FixedWei(ctx, w, red.0, red.1);
  }

  /** Fixing the reduced quotient c * 10^(z-18) of w = ±c * 10^z. */
  lemma FixedWei(ctx: Context, w: int, c: nat, e: int)
    requires e >= -18 && Abs(w) == c * Pow10(e + 18)
    ensures var x := Fix(w < 0, c, e, ctx);
      && (NumDigits(Abs(w)) <= ctx.prec ==> ValueIs(x, w, 18))
      && (NumDigits(Abs(w)) > ctx.prec ==> RoundedWei(x, w, ctx.prec, ctx.rounding))
  {
    var a := Abs(w);
    var z: nat := e + 18;
    if NumDigits(a) <= ctx.prec {
      ReducedFits(a, c, z, ctx.prec);
      ShiftedCoefficient(w, c, e);
    } else {
      assert a >= 10;
      NumDigitsShift(c, z);
      var k := NumDigits(a) - ctx.prec;
      if NumDigits(c) <= ctx.prec {
        RoundedShort(w, c, z, k, ctx.rounding);
      } else {
        RoundedLong(w, c, z, NumDigits(c) - ctx.prec, ctx.rounding);
      }
    }
  }

  /** When the reduced coefficient already fits, the quotient is exact, and
      so is rounding off the `k` low digits of w, which are zeros. */
  lemma RoundedShort(w: int, c: nat, z: nat, k: nat, m: Mode)
    requires Abs(w) == c * Pow10(z) && k <= z
    ensures Signed(w < 0, c) * Pow10(z - k) == RoundDiv(w, Pow10(k), m)
  {
    var s := w < 0;
    ShiftSplit(c, z, k);
    SignedScale(s, c * Pow10(z - k), Pow10(k));
    SignedScale(s, c, Pow10(z - k));
    RoundDivExact(Signed(s, c) * Pow10(z - k), Pow10(k), m);
  }

  /** Rounding off the `k' + z` low digits of w = c * 10^z is rounding off
      the `k'` low digits of c. */
  lemma RoundedLong(w: int, c: nat, z: nat, k': nat, m: Mode)
    requires Abs(w) == c * Pow10(z)
    ensures RoundDiv(w, Pow10(k' + z), m) == RoundDiv(Signed(w < 0, c), Pow10(k'), m)
  {
    SignedScale(w < 0, c, Pow10(z));
    Pow10Add(k', z);
    RoundDivScaled(Signed(w < 0, c), Pow10(k'), Pow10(z), m);
  }

  /** The magnitude `quantize` computes before the precision check is
      |x * 10^18| rounded under `m`, carrying the sign of x. */
  lemma QuantizedMagnitude(x: Dec, m: Mode)
    requires x.Finite?
    ensures Signed(x.sign, Rescale(x, -18, m)) == WeiRounding(x, m)
  {
    if x.exp >= -18 {
      RoundDivByOne(ScaledNumerator(x), m);
    } else {
      RoundedIsRoundDiv(SignedCoef(x), Pow10(-18 - x.exp), m, Signed(x.sign, Rescale(x, -18, m)));
    }
  }

  /** The three steps of the conversion of a finite amount in `ctx`:
      quantizing succeeds exactly when x * 10^18 rounded under `m` fits the
      precision, and then multiplying back and `int()` return it. */
  lemma ConvertsFinite(ctx: Context, x: Dec, m: Mode)
    ensures x.Finite? ==>
      var q := Quantize(x, -18, m, ctx);
      && (q.Success? <==> Abs(WeiRounding(x, m)) < Pow10(ctx.prec))
      && (q.Success? ==>
            var p := Multiply(q.value, GrtFactor, ctx);
            p.Success? && ToInt(p.value) == Success(WeiRounding(x, m)))
  {
    if x.Finite? {
      var z := WeiRounding(x, m);
      QuantizedMagnitude(x, m);
      assert Rescale(x, -18, m) == Abs(z);
      if Abs(z) < Pow10(ctx.prec) {
        ScaleBack(x.sign, Abs(z), GrtDecimals, ctx, GrtFactor);
      }
    }
  }

  /** Multiplying c * 10^-j by the factor 10^j in a context wide enough for c
      is exact: the product is a whole number, so `int()` discards nothing. */
  lemma ScaleBack(s: bool, q: nat, j: nat, ctx: Context, factor: Dec)
    requires q < Pow10(ctx.prec) && factor == Finite(false, Pow10(j), 0)
    ensures var r := Multiply(Finite(s, q, -(j as int)), factor, ctx);
      && r.Success?
      && (r.value.exp < 0 ==> r.value.coef % Pow10(-r.value.exp) == 0)
      && ToInt(r.value) == Success(Signed(s, q))
  {
    MultiplyFinite(Finite(s, q, -(j as int)), factor, ctx);
    FixShiftedIsExact(s, q, j, ctx);
  }

  /** Without an explicit rounding the conversion uses the GRT context's. */
  lemma DefaultRoundingIsHalfEven(x: Dec)
    ensures DecimalToWeiIn(GrtContext, x, None) == DecimalToWeiIn(GrtContext, x, Some(HalfEven))
  {
  }

  /** A decimal that denotes w * 10^-18 converts back to w in every mode. */
  lemma WeiRoundingOfExact(x: Dec, w: int, m: Mode)
    requires ValueIs(x, w, 18)
    ensures WeiRounding(x, m) == w
  {
    if x.exp >= -18 {
      RoundDivByOne(w, m);
    } else {
      RoundDivExact(w, Pow10(-18 - x.exp), m);
    }
  }

  /** Beyond 78 digits the division result, although rounded, still scales
      to an integer of 79 digits or more. */
  lemma LargeWeiOverflows(w: int)
    requires Abs(w) >= Pow10(GrtPrecision)
    ensures var x := WeiToDecimalIn(GrtContext, w).value;
      x.Finite? && x.exp >= -18 && Abs(ScaledNumerator(x)) >= Pow10(GrtPrecision)
  {
    WeiToDecimalSteps(w, GrtContext);
    var red := Reduce(Abs(w), -18, 0);
    if NumDigits(red.0) <= GrtPrecision {
      ReducedFitsExactly(w, red.0, red.1);
    } else {
      ReducedIsRounded(w);
    }
  }

  /** When the reduced quotient fits, the division is exact. */
  lemma ReducedFitsExactly(w: int, c: nat, e: int)
    requires -18 <= e && Abs(w) == c * Pow10(e + 18) && NumDigits(c) <= GrtPrecision
    ensures var x := Fix(w < 0, c, e, GrtContext); x.exp >= -18 && ScaledNumerator(x) == w
  {
    assert Fix(w < 0, c, e, GrtContext) == Finite(w < 0, c, e);
    ShiftedCoefficient(w, c, e);
  }

  /** When it does not, the rounded quotient still scales to 79 digits or more. */
  lemma ReducedIsRounded(w: int)
    requires NumDigits(Reduce(Abs(w), -18, 0).0) > GrtPrecision
    ensures var red := Reduce(Abs(w), -18, 0);
      var x := Fix(w < 0, red.0, red.1, GrtContext);
      x.exp >= -18 && Abs(ScaledNumerator(x)) >= Pow10(GrtPrecision)
  {
    var red := Reduce(Abs(w), -18, 0);
    FixRoundsLarge(w < 0, red.0, red.1, GrtContext);
    LargeScaled(Fix(w < 0, red.0, red.1, GrtContext), GrtPrecision - 1);
  }

  /** A decimal of p + 1 digits with an exponent of -17 or more scales to at
      least 10^(p+1). */
  lemma LargeScaled(x: Dec, p: nat)
    requires x.Finite? && x.exp >= -17 && x.coef >= Pow10(p)
    ensures Abs(ScaledNumerator(x)) >= Pow10(p + 1)
  {
    ScaledAtLeast(x.coef, p, x.exp + 18);
    SignedScale(x.sign, x.coef, Pow10(x.exp + 18));
  }

  /** Converting wei to a decimal and back, in any ambient contexts and with
      any rounding, returns the original amount whenever it has at most 78
      digits (every 256-bit value does), and raises `InvalidOperation`
      otherwise. */
  lemma RoundTrip(a1: Context, a2: Context, w: int, rounding: Option<Mode>)
    ensures GrtDecimalToWei(a2, GrtWeiToDecimal(a1, w).result.value, rounding).result ==
      if Abs(w) < Pow10(GrtPrecision) then Success(w) else Failure(InvalidOperation)
  {
    var x := GrtWeiToDecimal(a1, w).result.value;
    var m := rounding.GetOr(HalfEven);
    if Abs(w) < Pow10(GrtPrecision) {
      WeiRoundingOfExact(x, w, m);
    } else {
      LargeWeiOverflows(w);
      RoundDivByOne(ScaledNumerator(x), m);
    }
  }

  /** 2^256 - 1 has 78 digits, so it fits the GRT precision. */
  lemma MaxUint256Fits()
    ensures MaxUint256 < Pow10(GrtPrecision) && NumDigits(MaxUint256) == GrtPrecision
  {
    Pow10Of77();
    Pow10Of78();
    FitsInDigits(MaxUint256, 78);
    FitsInDigits(MaxUint256, 77);
  }

  /** Every amount of at most 256 bits, of either sign, converts to an exact
      decimal and back unchanged. */
  lemma Uint256RoundTrip(a1: Context, a2: Context, w: int, rounding: Option<Mode>)
    requires Abs(w) <= MaxUint256
    ensures ValueIs(GrtWeiToDecimal(a1, w).result.value, w, 18)
    ensures GrtDecimalToWei(a2, GrtWeiToDecimal(a1, w).result.value, rounding).result == Success(w)
  {
    MaxUint256Fits();
    RoundTrip(a1, a2, w, rounding);
  }

  /** A decimal on the 10^-18 grid converts to wei exactly, whatever the
      rounding, and converting that wei back denotes the same amount. */
  lemma GridRoundTrip(a1: Context, a2: Context, x: Dec, rounding: Option<Mode>)
    requires x.Finite? && x.exp >= -18
    requires GrtDecimalToWei(a1, x, rounding).result.Success?
    ensures var z := GrtDecimalToWei(a1, x, rounding).result.value;
      && ValueIs(x, z, 18)
      && ValueIs(GrtWeiToDecimal(a2, z).result.value, z, 18)
  {
    var z := GrtDecimalToWei(a1, x, rounding).result.value;
    RoundDivByOne(ScaledNumerator(x), rounding.GetOr(HalfEven));
    assert Abs(z) < Pow10(GrtPrecision);
  }

  /** The converted amount is within one wei of x * 10^18, within half a wei
      under the half modes, and exact when x * 10^18 is a whole number. */
  lemma DecimalToWeiError(a: Context, x: Dec, rounding: Option<Mode>)
    requires x.Finite?
    ensures var r := GrtDecimalToWei(a, x, rounding).result;
      var n, d := ScaledNumerator(x), ScaledDenominator(x);
      r.Success? ==>
        && Abs(r.value * d - n) < d
        && (IsHalfMode(rounding.GetOr(HalfEven)) ==> 2 * Abs(r.value * d - n) <= d)
        && (n % d == 0 ==> r.value * d == n)
  {
    RoundDivError(ScaledNumerator(x), ScaledDenominator(x), rounding.GetOr(HalfEven));
  }

  /** Every mode lies between flooring and ceiling, which differ by at most
      one wei and bracket x * 10^18. */
  lemma DecimalToWeiBracketed(a: Context, x: Dec, m: Mode)
    requires x.Finite?
    ensures var lo := GrtDecimalToWei(a, x, Some(Floor)).result;
      var mid := GrtDecimalToWei(a, x, Some(m)).result;
      var hi := GrtDecimalToWei(a, x, Some(Ceiling)).result;
      var n, d := ScaledNumerator(x), ScaledDenominator(x);
      lo.Success? && mid.Success? && hi.Success? ==>
        && lo.value <= mid.value <= hi.value
        && hi.value - lo.value <= 1
        && lo.value * d <= n <= hi.value * d
  {
    RoundDivBracketed(ScaledNumerator(x), ScaledDenominator(x), m);
  }

  /** Rounding down never increases the magnitude, rounding up never
      decreases it, and neither changes the sign. */
  lemma DecimalToWeiDirection(a: Context, x: Dec)
    requires x.Finite?
    ensures var dn := GrtDecimalToWei(a, x, Some(Down)).result;
      var n, d := ScaledNumerator(x), ScaledDenominator(x);
      dn.Success? ==> Abs(dn.value * d) <= Abs(n) && (n >= 0 ==> dn.value >= 0) && (n <= 0 ==> dn.value <= 0)
    ensures var up := GrtDecimalToWei(a, x, Some(Up)).result;
      var n, d := ScaledNumerator(x), ScaledDenominator(x);
      up.Success? ==> Abs(up.value * d) >= Abs(n) && (n >= 0 ==> up.value >= 0) && (n <= 0 ==> up.value <= 0)
  {
    RoundDivDirection(ScaledNumerator(x), ScaledDenominator(x));
  }

  /** The results do not depend on the caller's context. */
  lemma AmbientIrrelevant(a1: Context, a2: Context, w: int, x: Dec, rounding: Option<Mode>)
    ensures GrtWeiToDecimal(a1, w).result == GrtWeiToDecimal(a2, w).result
    ensures GrtDecimalToWei(a1, x, rounding).result == GrtDecimalToWei(a2, x, rounding).result
  {
  }

  /** A decimal at exponent -17 or above denotes only multiples of ten wei. */
  lemma CoarseIsMultipleOfTen(x: Dec, w: int)
    requires x.Finite? && x.exp >= -17 && ValueIs(x, w, 18)
    ensures w % 10 == 0
  {
    var t: nat := x.exp + 18;
    var a := SignedCoef(x) * Pow10(t - 1);
    assert SignedCoef(x) * Pow10(t) == a * 10;
    MulDivCancel(a, 10);
  }

  /** So a decimal at exponent -17 or above cannot denote an amount whose
      last digit is not zero. */
  lemma CoarseIsInexact(x: Dec, w: int)
    requires x.Finite? && x.exp >= -17 && w % 10 != 0
    ensures !ValueIs(x, w, 18)
  {
    if ValueIs(x, w, 18) {
      CoarseIsMultipleOfTen(x, w);
    }
  }

  /** A wei amount whose last digit is not zero and which has more digits
      than the context's precision cannot be divided exactly: the quotient
      is rounded. */
  lemma WeiToDecimalRounds(w: int, ctx: Context)
    requires w % 10 != 0 && NumDigits(Abs(w)) > ctx.prec
    ensures !ValueIs(WeiToDecimalIn(ctx, w).value, w, 18)
  {
    var a := Abs(w);
    assert a % 10 != 0;
    WeiToDecimalSteps(w, ctx);
    ReduceStops(a, -18, 0);
    var x := Fix(w < 0, a, -18, ctx);
    FixRoundsLarge(w < 0, a, -18, ctx);
    CoarseIsInexact(x, w);
  }

  /** Under Python's default 28-digit context the division rounds every
      amount of 29 to 78 digits that does not end in zero; under the GRT
      context it is exact. */
  lemma DefaultContextRoundsWei(w: int)
    requires w % 10 != 0 && Pow10(28) <= Abs(w) < Pow10(GrtPrecision)
    ensures ValueIs(WeiToDecimalIn(GrtContext, w).value, w, 18)
    ensures !ValueIs(WeiToDecimalIn(DefaultContext, w).value, w, 18)
  {
    FitsInDigits(Abs(w), 28);
    WeiToDecimalRounds(w, DefaultContext);
    FitsInDigits(Abs(w), GrtPrecision);
  }

  /** 2^256 - 1 is such an amount. */
  lemma MaxUint256NeedsGrtContext()
    ensures ValueIs(WeiToDecimalIn(GrtContext, MaxUint256).value, MaxUint256, 18)
    ensures !ValueIs(WeiToDecimalIn(DefaultContext, MaxUint256).value, MaxUint256, 18)
  {
    MaxUint256Fits();
    Pow10Of28();
    DefaultContextRoundsWei(MaxUint256);
  }

  /** Without an explicit rounding, the conversion uses the current context's. */
  lemma NoneUsesContextRounding(ctx: Context, x: Dec)
    ensures DecimalToWeiIn(ctx, x, None) == DecimalToWeiIn(ctx, x, Some(ctx.rounding))
  {
  }

  /** Under Python's default context, quantizing 10^e tokens to 10^-18 needs
      e + 19 digits and raises `InvalidOperation` once that exceeds 28; the
      GRT context returns 10^(e+18) wei up to 78 digits. */
  lemma DefaultContextRefusesQuantize(e: nat)
    requires 10 <= e <= 59
    ensures DecimalToWeiIn(DefaultContext, Finite(false, 1, e), None) == Failure(InvalidOperation)
    ensures DecimalToWeiIn(GrtContext, Finite(false, 1, e), None) == Success(Pow10(e + 18))
  {
    DefaultQuantizeOverflows(e);
    GrtQuantizesPower(e);
  }

  lemma DefaultQuantizeOverflows(e: nat)
    requires 10 <= e
    ensures DecimalToWeiIn(DefaultContext, Finite(false, 1, e), None) == Failure(InvalidOperation)
  {
    QuantizeOverflows(DefaultContext, e);
  }

  /** 10^e tokens need e + 19 digits at exponent -18. */
  lemma QuantizeOverflows(ctx: Context, e: nat)
    requires ctx.prec <= e + 18
    ensures DecimalToWeiIn(ctx, Finite(false, 1, e), None) == Failure(InvalidOperation)
  {
    var x := Finite(false, 1, e);
    assert ScaledNumerator(x) == Pow10(e + 18);
    RoundDivByOne(Pow10(e + 18), ctx.rounding);
    Pow10Monotone(ctx.prec, e + 18);
  }

  lemma GrtQuantizesPower(e: nat)
    requires e <= 59
    ensures DecimalToWeiIn(GrtContext, Finite(false, 1, e), None) == Success(Pow10(e + 18))
  {
    var x := Finite(false, 1, e);
    var p := Pow10(e + 18);
    assert ValueIs(x, p, 18);
    WeiRoundingOfExact(x, p, HalfEven);
    Pow10Monotone(e + 18, GrtPrecision);
  }

  lemma ShiftSplit(c: nat, j: nat, k: nat)
    requires k <= j
    ensures c * Pow10(j) == (c * Pow10(j - k)) * Pow10(k)
  {
    Pow10Add(j - k, k);
  }

  /** c * 10^t scaled by 10^-t is the whole number c. */
  lemma ToIntOfShifted(s: bool, c: nat, t: nat)
    ensures var p := Finite(s, c * Pow10(t), -(t as int));
      && (t > 0 ==> p.coef % Pow10(t) == 0)
      && ToInt(p) == Success(Signed(s, c))
  {
    MulDivCancel(c, Pow10(t));
  }

  /** Multiplying a coefficient of at most `prec` digits by 10^j and scaling
      back by 10^-j is exact, and the product is a whole number, so `int()`
      discards no fractional part. */
  lemma FixShiftedIsExact(s: bool, c: nat, j: nat, ctx: Context)
    requires c < Pow10(ctx.prec)
    ensures var p := Fix(s, c * Pow10(j), -(j as int), ctx);
      && (p.exp < 0 ==> p.coef % Pow10(-p.exp) == 0)
      && ToInt(p) == Success(Signed(s, c))
  {
    var n := c * Pow10(j);
    if NumDigits(n) <= ctx.prec {
      assert Fix(s, n, -(j as int), ctx) == Finite(s, n, -(j as int));
      ToIntOfShifted(s, c, j);
    } else {
      var k := FixShiftedDrops(s, c, j, ctx);
      ToIntOfShifted(s, c, j - k);
    }
  }

  /** When c * 10^j is too long for the context, `Fix` drops k of the j
      appended zeros and nothing else. */
  lemma FixShiftedDrops(s: bool, c: nat, j: nat, ctx: Context) returns (k: nat)
    requires c < Pow10(ctx.prec) && NumDigits(c * Pow10(j)) > ctx.prec
    ensures k <= j
    ensures Fix(s, c * Pow10(j), -(j as int), ctx) == Finite(s, c * Pow10(j - k), -((j - k) as int))
  {
    var n := c * Pow10(j);
    FitsInDigits(c, ctx.prec);
    NumDigitsShift(c, j);
    k := NumDigits(n) - ctx.prec;
    ShiftSplit(c, j, k);
    FixDropsZeros(s, n, -(j as int), ctx, k, c * Pow10(j - k));
  }
}

=== FILE: opt_fun.dfy ===
/** The bookkeeping `opt_fun` performs around the AllocationOpt.jl optimizer:
    the free-stake check, the allocation cap, the pinned add-back, the
    column-sum budget check and the number of reported strategies. The
    library functions it calls are uninterpreted fields of an `Engine`. */
module OptFun {
  import opened Arith
  import opened Wrappers
  import Decimal

  /** A Julia `Float64` as the budget check sees it: a number, or NaN.
      Rounding of the floating-point operations is not modelled. */
  datatype Float = Num(v: real) | NaN

  /** Floating-point addition: NaN absorbs everything. */
  function Plus(a: Float, b: Float): Float {
    if a.NaN? || b.NaN? then NaN else Num(a.v + b.v)
  }

  /** `sum` of a vector of reals. */
  function Sum(s: seq<real>): real {
    if |s| == 0 then 0.0 else Sum(s[..|s| - 1]) + s[|s| - 1]
  }

  /** One column of the optimizer's plan: one amount per filtered subgraph. */
  type Column = seq<Float>

  /** The sum of one column, as `sum(xs; dims=1)` computes it. */
  function ColumnSum(col: Column): Float {
    if |col| == 0 then Num(0.0) else Plus(ColumnSum(col[..|col| - 1]), col[|col| - 1])
  }

  /** A column sums to NaN exactly when some entry is NaN. */
  lemma {:induction false} ColumnSumIsNaN(col: Column)
    ensures ColumnSum(col).NaN? <==> exists i :: 0 <= i < |col| && col[i].NaN?
  {
    if |col| > 0 {
      var n := |col|;
      ColumnSumIsNaN(col[..n - 1]);
      assert forall i :: 0 <= i < n - 1 ==> col[..n - 1][i] == col[i];
    }
  }

  function ColumnSums(xs: seq<Column>): (r: seq<Float>)
    ensures |r| == |xs| && forall j :: 0 <= j < |xs| ==> r[j] == ColumnSum(xs[j])
  {
    seq(|xs|, j requires 0 <= j < |xs| => ColumnSum(xs[j]))
  }

  /** A column of plain numbers. */
  function Lift(vals: seq<real>): (r: Column)
    ensures |r| == |vals| && forall i :: 0 <= i < |r| ==> r[i] == Num(vals[i])
  {
    seq(|vals|, i requires 0 <= i < |vals| => Num(vals[i]))
  }

  /** `xs .+ pinnedvec` on one column: entry i grows by the i-th pinned amount. */
  function AddPinned(col: Column, pinned: seq<real>): (r: Column)
    requires |col| == |pinned|
    ensures |r| == |col|
    ensures forall i :: 0 <= i < |col| ==> r[i] == Plus(col[i], Num(pinned[i]))
  {
    seq(|col|, i requires 0 <= i < |col| => Plus(col[i], Num(pinned[i])))
  }

  /** `xs .= xs .+ pinnedvec` on a plan of `rows` rows: the pinned vector is
      added to every column. `None` when the pinned vector does not have one
      entry per row (Julia raises `DimensionMismatch`); a plan whose columns
      are not all `rows` long is no matrix and is refused the same way. */
  function AddBack(xs: seq<Column>, rows: nat, pinned: seq<real>): (r: Option<seq<Column>>)
    ensures r.Some? <==> |pinned| == rows && forall j :: 0 <= j < |xs| ==> |xs[j]| == rows
    ensures r.Some? ==> |r.value| == |xs| && forall j :: 0 <= j < |xs| ==> |r.value[j]| == rows
    ensures r.Some? ==>
      forall j, i :: 0 <= j < |xs| && 0 <= i < rows ==> r.value[j][i] == Plus(xs[j][i], Num(pinned[i]))
  {
    if |pinned| == rows && forall j :: 0 <= j < |xs| ==> |xs[j]| == rows then
      Some(seq(|xs|, j requires 0 <= j < |xs| => AddPinned(xs[j], pinned)))
    else None
  }

  /** `isnan(x) || x ≤ σmax`. */
  predicate WithinBudget(x: Float, cap: real) {
    x.NaN? || x.v <= cap
  }

  /** The loop over the column sums: the first sum above `cap` raises an
      error carrying `x - σmax`; `None` when every sum passes. */
  function FirstOverflow(sums: seq<Float>, cap: real): (r: Option<real>)
    ensures r.None? <==> forall j :: 0 <= j < |sums| ==> WithinBudget(sums[j], cap)
    ensures r.Some? ==> r.value > 0.0
  {
    if |sums| == 0 then None
    else if WithinBudget(sums[0], cap) then
      var r := FirstOverflow(sums[1..], cap);
      assert forall j :: 1 <= j < |sums| ==> sums[1..][j - 1] == sums[j];
      r
    else Some(sums[0].v - cap)
  }

  /** The error names the first column over budget: every earlier column
      passed, and this one spends `cap` plus the reported overflow. */
  lemma {:induction false} FirstOverflowLocated(sums: seq<Float>, cap: real)
    requires FirstOverflow(sums, cap).Some?
    ensures exists j :: 0 <= j < |sums| && sums[j] == Num(cap + FirstOverflow(sums, cap).value) &&
                        forall k :: 0 <= k < j ==> WithinBudget(sums[k], cap)
  {
    if WithinBudget(sums[0], cap) {
      FirstOverflowLocated(sums[1..], cap);
      var j :| 0 <= j < |sums[1..]| && sums[1..][j] == Num(cap + FirstOverflow(sums[1..], cap).value) &&
               forall k :: 0 <= k < j ==> WithinBudget(sums[1..][k], cap);
      assert forall k :: 0 <= k < j + 1 ==> WithinBudget(sums[k], cap) by {
        forall k | 0 <= k < j + 1
          ensures WithinBudget(sums[k], cap)
        {
          if k > 0 {
            assert sums[k] == sums[1..][k - 1];
          }
        }
      }
      assert sums[j + 1] == sums[1..][j];
    } else {
      assert sums[0] == Num(cap + FirstOverflow(sums, cap).value);
    }
  }

  /** The indexer state the library reads: `availablestake(Val(:indexer), i)`,
      `frozen(a, config)`, `pinned(fs, config)`, the number of subgraphs
      `deniedzeroixs(fs)` finds eligible for rewards, and the deployment IDs
      of the allocatable subgraphs `fs`. */
  datatype Snapshot = Snapshot(available: real, frozen: real, pinned: seq<real>, rewardable: nat,
                               subgraphs: seq<string>)

  /** σ = available − frozen − σpinned: together with the pinned stake it
      makes up everything not frozen, the σmax of the budget check. */
  function FreeStake(s: Snapshot): (sigma: real)
    ensures sigma + Sum(s.pinned) == s.available - s.frozen
  {
    s.available - s.frozen - Sum(s.pinned)
  }

  /** `OptMode`: "fast" or "optimal". */
  datatype OptMode = Fast | Optimal

  /** The configuration dictionary the wrapper hands to `opt_fun`. */
  datatype Config = Config(
    id: string,
    networkSubgraphEndpoint: string,
    whitelist: seq<string>,
    blacklist: seq<string>,
    frozenlist: seq<string>,
    pinnedlist: seq<string>,
    allocationLifetime: int,
    gas: real,
    minSignal: int,
    maxAllocations: int,
    numReportedOptions: int,
    indexerUrl: string,
    verbose: bool,
    optMode: OptMode,
    readdir: Option<string>)

  /** The profit of every subgraph under every candidate. */
  type ProfitMatrix = seq<seq<real>>

  /** What `optimize` returns: the plan `xs`, a matrix of `rows` rows (one per
      allocatable subgraph) with one column per candidate, the number of
      nonzero entries of each candidate, and the profit matrix. */
  datatype Solution = Solution(rows: nat, xs: seq<Column>, nonzeros: seq<nat>, profits: ProfitMatrix)

  /** The best candidate of one nonzero-count group, with its profit. */
  datatype Candidate = Candidate(column: nat, profit: real)

  /** One allocation of a reported strategy. */
  datatype Entry = Entry(deploymentID: string, allocationAmount: Decimal.Dec)

  /** A strategy as `strategydict` builds it. */
  datatype Strategy = Strategy(allocations: seq<Entry>)

  /** The library functions `opt_fun` calls, left uninterpreted. `optimize`
      is `None` when it raises, as the optimal mode sometimes does when it
      fails to converge. */
  datatype Engine = Engine(
    snapshot: Config -> Snapshot,
    optimize: (Config, real, int) -> Option<Solution>,
    groupunique: seq<nat> -> seq<seq<nat>>,
    bestprofitpernz: (seq<nat>, ProfitMatrix) -> Candidate,
    sortprofits: seq<Candidate> -> seq<Candidate>,
    strategydict: (Candidate, seq<Column>, seq<nat>, seq<string>, ProfitMatrix) -> Strategy)

  datatype Outcome =
    | NoStake                          // the `@assert σ > 0` failed
    | OptimizerFailed                  // `optimize` raised
    | ShapeMismatch                    // the add-back could not broadcast
    | BudgetExceeded(overflow: real)   // a column sum exceeded σmax by `overflow`
    | Strategies(strategies: seq<Strategy>)

  /** K = min(config["max_allocations"], length(rixs)). */
  function AllocationCap(maxAllocations: int, rewardable: nat): (k: int)
    ensures k <= maxAllocations && k <= rewardable
    ensures k == maxAllocations || k == rewardable
  {
    Min(maxAllocations, rewardable)
  }

  /** nreport = min(config["num_reported_options"], length(popts)), as the
      length of `popts[1:nreport]` (empty when nreport is not positive). */
  function ReportCount(numReportedOptions: int, available: nat): (n: nat)
    ensures numReportedOptions < 0 ==> n == 0
    ensures numReportedOptions >= 0 ==> n <= available && n <= numReportedOptions
    ensures numReportedOptions >= 0 ==> n == available || n == numReportedOptions
  {
    var nreport := Min(numReportedOptions, available);
    if nreport < 0 then 0 else nreport
  }

  /** `sortprofits!` sorts in place: it keeps the length of the vector. */
  ghost predicate SortsInPlace(e: Engine) {
    forall ps: seq<Candidate> {:trigger e.sortprofits(ps)} :: |e.sortprofits(ps)| == |ps|
  }

  /** The profiles `popts`: the best candidate of each group of equal nonzero
      counts, found from the profit matrix alone, then ranked. There is one
      per group when the ranking keeps the length. */
  function RankedCandidates(e: Engine, sol: Solution): (popts: seq<Candidate>)
    ensures SortsInPlace(e) ==> |popts| == |e.groupunique(sol.nonzeros)|
  {
    var groups := e.groupunique(sol.nonzeros);
    e.sortprofits(seq(|groups|, i requires 0 <= i < |groups| => e.bestprofitpernz(groups[i], sol.profits)))
  }

  /** The strategies built from the first `nreport` ranked candidates, each
      from the plan `xs` with the pinned stake added back, the nonzero
      counts, the subgraphs `fs` and the profit matrix. */
  function Report(e: Engine, config: Config, fs: seq<string>, sol: Solution, xs: seq<Column>): (r: seq<Strategy>)
    ensures var popts := RankedCandidates(e, sol);
      && |r| == ReportCount(config.numReportedOptions, |popts|)
      && forall i :: 0 <= i < |r| ==> r[i] == e.strategydict(popts[i], xs, sol.nonzeros, fs, sol.profits)
  {
    var popts := RankedCandidates(e, sol);
    var n := ReportCount(config.numReportedOptions, |popts|);
    seq(n, i requires 0 <= i < n => e.strategydict(popts[i], xs, sol.nonzeros, fs, sol.profits))
  }

  /** The plan `optimize(Ω, ψ, σ, K, Φ, Ψ, g, rixs, config)` returns for the
      free stake σ and the allocation cap K, or `None` when it raises. */
  function Plan(e: Engine, config: Config): Option<Solution> {
    var snap := e.snapshot(config);
    e.optimize(config, FreeStake(snap), AllocationCap(config.maxAllocations, snap.rewardable))
  }

  /** The optimizer is asked to spend what is neither frozen nor pinned, on
      K = min(max_allocations, #rewardable) subgraphs: at most each bound,
      and equal to one of them. */
  lemma PlanArguments(e: Engine, config: Config)
    ensures var snap := e.snapshot(config);
      exists sigma: real, k: int ::
        && Plan(e, config) == e.optimize(config, sigma, k)
        && sigma + Sum(snap.pinned) == snap.available - snap.frozen
        && k <= config.maxAllocations && k <= snap.rewardable
        && (k == config.maxAllocations || k == snap.rewardable)
  {
    var snap := e.snapshot(config);
    var sigma := FreeStake(snap);
    var k := AllocationCap(config.maxAllocations, snap.rewardable);
    assert Plan(e, config) == e.optimize(config, sigma, k);
  }

  /** Everything `opt_fun` does after the optimizer: the pinned add-back, the
      check of every column sum against σmax = σ + σpinned, and the report. */
  function Settle(e: Engine, config: Config, snap: Snapshot, sol: Solution, sigma: real): (o: Outcome)
    ensures o.BudgetExceeded? || o.ShapeMismatch? || o.Strategies?
    ensures o.ShapeMismatch? <==> AddBack(sol.xs, sol.rows, snap.pinned).None?
    ensures AddBack(sol.xs, sol.rows, snap.pinned).Some? ==>
      var over := FirstOverflow(ColumnSums(AddBack(sol.xs, sol.rows, snap.pinned).value), sigma + Sum(snap.pinned));
      && (o.BudgetExceeded? <==> over.Some?)
      && (o.BudgetExceeded? ==> o.overflow == over.value)
    ensures o.BudgetExceeded? ==> o.overflow > 0.0
    ensures o.Strategies? ==>
      && AddBack(sol.xs, sol.rows, snap.pinned).Some?
      && (forall j :: 0 <= j < |sol.xs| ==>
            WithinBudget(ColumnSum(AddBack(sol.xs, sol.rows, snap.pinned).value[j]), sigma + Sum(snap.pinned)))
      && o.strategies == Report(e, config, snap.subgraphs, sol, AddBack(sol.xs, sol.rows, snap.pinned).value)
  {
    match AddBack(sol.xs, sol.rows, snap.pinned)
    case None => ShapeMismatch
    case Some(xs) =>
      var sigmaMax := sigma + Sum(snap.pinned);
      match FirstOverflow(ColumnSums(xs), sigmaMax)
      case Some(over) => BudgetExceeded(over)
      case None => Strategies(Report(e, config, snap.subgraphs, sol, xs))
  }

  /** `opt_fun(config)`: no stake to allocate fails before the optimizer
      runs, and a plan the optimizer returns is settled; a reported plan spends at most available − frozen in every
      column whose sum is not NaN. */
  function Run(e: Engine, config: Config): (o: Outcome)
    ensures o.NoStake? <==> FreeStake(e.snapshot(config)) <= 0.0
    ensures o.OptimizerFailed? <==> FreeStake(e.snapshot(config)) > 0.0 && Plan(e, config).None?
    ensures FreeStake(e.snapshot(config)) > 0.0 && Plan(e, config).Some? ==>
      o == Settle(e, config, e.snapshot(config), Plan(e, config).value, FreeStake(e.snapshot(config)))
    ensures o.BudgetExceeded? ==> o.overflow > 0.0
    ensures o.Strategies? ==>
      var snap := e.snapshot(config);
      && Plan(e, config).Some?
      && var sol := Plan(e, config).value;
      && AddBack(sol.xs, sol.rows, snap.pinned).Some?
      && (forall j :: 0 <= j < |sol.xs| ==>
            WithinBudget(ColumnSum(AddBack(sol.xs, sol.rows, snap.pinned).value[j]), snap.available - snap.frozen))
      && o.strategies == Report(e, config, snap.subgraphs, sol, AddBack(sol.xs, sol.rows, snap.pinned).value)
  {
    var snap := e.snapshot(config);
    var sigma := FreeStake(snap);
    if !(sigma > 0.0) then NoStake
    else
      match Plan(e, config)
      case None => OptimizerFailed
      case Some(sol) => Settle(e, config, snap, sol, sigma)
  }

  /** Adding a vector and then its negation restores the column (the
      entrywise effect of the add-back is stated by `AddPinned` and `AddBack`). */
  lemma AddPinnedUndo(col: Column, pinned: seq<real>)
    requires |col| == |pinned|
    ensures AddPinned(AddPinned(col, pinned), Negate(pinned)) == col
  {
    var r := AddPinned(AddPinned(col, pinned), Negate(pinned));
    forall i | 0 <= i < |col|
      ensures r[i] == col[i]
    {
      assert AddPinned(col, pinned)[i] == Plus(col[i], Num(pinned[i]));
    }
  }

  function Negate(s: seq<real>): (r: seq<real>)
    ensures |r| == |s| && forall i :: 0 <= i < |s| ==> r[i] + s[i] == 0.0
  {
    seq(|s|, i requires 0 <= i < |s| => -s[i])
  }

  /** A column of numbers sums to the sum of the numbers. */
  lemma {:induction false} ColumnSumOfNumbers(vals: seq<real>)
    ensures ColumnSum(Lift(vals)) == Num(Sum(vals))
  {
    if |vals| > 0 {
      var n := |vals|;
      assert Lift(vals)[..n - 1] == Lift(vals[..n - 1]);
      ColumnSumOfNumbers(vals[..n - 1]);
    }
  }

  /** After the add-back a column sums to its old sum plus σpinned. */
  lemma {:induction false} ColumnSumAddPinned(col: Column, pinned: seq<real>)
    requires |col| == |pinned|
    ensures ColumnSum(AddPinned(col, pinned)) == Plus(ColumnSum(col), Num(Sum(pinned)))
  {
    if |col| > 0 {
      var n := |col|;
      assert AddPinned(col, pinned)[..n - 1] == AddPinned(col[..n - 1], pinned[..n - 1]);
      ColumnSumAddPinned(col[..n - 1], pinned[..n - 1]);
    }
  }

  /** Every sum moved by `d`. */
  function Shift(sums: seq<Float>, d: real): (r: seq<Float>)
    ensures |r| == |sums| && forall j :: 0 <= j < |sums| ==> r[j] == Plus(sums[j], Num(d))
  {
    seq(|sums|, j requires 0 <= j < |sums| => Plus(sums[j], Num(d)))
  }

  /** The column sums of the added-back plan are the raw column sums moved by σpinned. */
  lemma ColumnSumsAddBack(xs: seq<Column>, rows: nat, pinned: seq<real>)
    requires AddBack(xs, rows, pinned).Some?
    ensures ColumnSums(AddBack(xs, rows, pinned).value) == Shift(ColumnSums(xs), Sum(pinned))
  {
    var back := AddBack(xs, rows, pinned).value;
    forall j | 0 <= j < |xs|
      ensures ColumnSum(back[j]) == Plus(ColumnSum(xs[j]), Num(Sum(pinned)))
    {
      ColumnSumAddPinned(xs[j], pinned);
    }
  }

  /** Moving every sum and the cap by the same amount changes neither which
      column fails first nor by how much. */
  lemma {:induction false} FirstOverflowShift(sums: seq<Float>, cap: real, d: real)
    ensures FirstOverflow(Shift(sums, d), cap + d) == FirstOverflow(sums, cap)
  {
    if |sums| > 0 {
      assert Shift(sums, d)[1..] == Shift(sums[1..], d);
      FirstOverflowShift(sums[1..], cap, d);
    }
  }

  /** Checking the added-back plan against σmax = σ + σpinned is the same as
      checking the optimizer's own plan against σ: the first failing column
      and its overflow agree. */
  lemma BudgetCheckIsRawCheck(xs: seq<Column>, rows: nat, pinned: seq<real>, sigma: real)
    requires AddBack(xs, rows, pinned).Some?
    ensures FirstOverflow(ColumnSums(AddBack(xs, rows, pinned).value), sigma + Sum(pinned))
         == FirstOverflow(ColumnSums(xs), sigma)
  {
    var raw := ColumnSums(xs);
    var d := Sum(pinned);
    calc {
      FirstOverflow(ColumnSums(AddBack(xs, rows, pinned).value), sigma + d);
      { ColumnSumsAddBack(xs, rows, pinned); }
      FirstOverflow(Shift(raw, d), sigma + d);
      { FirstOverflowShift(raw, sigma, d); }
      FirstOverflow(raw, sigma);
    }
  }

  /** A plan is rejected exactly when some raw column the optimizer returned
      spends more than σ, by the amount it overspends, and it is rejected
      whole: no strategy is produced from it. */
  lemma RejectsOverspentPlan(e: Engine, config: Config, snap: Snapshot, sol: Solution, sigma: real)
    requires AddBack(sol.xs, sol.rows, snap.pinned).Some?
    ensures var raw := FirstOverflow(ColumnSums(sol.xs), sigma);
      && (raw.Some? ==> Settle(e, config, snap, sol, sigma) == BudgetExceeded(raw.value))
      && (raw.None? ==> Settle(e, config, snap, sol, sigma).Strategies?)
  {
    BudgetCheckIsRawCheck(sol.xs, sol.rows, snap.pinned, sigma);
    SettleChecksBack(e, config, snap, sol, sigma, AddBack(sol.xs, sol.rows, snap.pinned).value);
  }

  /** `Settle` decides on the first overflow of the added-back plan. */
  lemma SettleChecksBack(e: Engine, config: Config, snap: Snapshot, sol: Solution, sigma: real, back: seq<Column>)
    requires AddBack(sol.xs, sol.rows, snap.pinned) == Some(back)
    ensures var over := FirstOverflow(ColumnSums(back), sigma + Sum(snap.pinned));
      && (over.Some? ==> Settle(e, config, snap, sol, sigma) == BudgetExceeded(over.value))
      && (over.None? ==> Settle(e, config, snap, sol, sigma).Strategies?)
  {
  }

  /** Whether there is stake to allocate is decided before the optimizer runs:
      two engines that read the same indexer state agree on it. */
  lemma NoStakeIgnoresOptimizer(e1: Engine, e2: Engine, config: Config)
    requires e1.snapshot(config) == e2.snapshot(config)
    ensures Run(e1, config).NoStake? <==> Run(e2, config).NoStake?
  {
  }

  /** At most `num_reported_options` strategies are reported, and at most one
      per group of candidates with the same number of nonzero allocations. */
  lemma ReportBounds(e: Engine, config: Config)
    requires SortsInPlace(e)
    requires Run(e, config).Strategies?
    ensures var n := |Run(e, config).strategies|;
      && (config.numReportedOptions >= 0 ==> n <= config.numReportedOptions)
      && n <= |e.groupunique(Plan(e, config).value.nonzeros)|
  {
  }
}

=== FILE: rounding.dfy ===
/** The rounding modes of Python's `decimal` module, applied to a rational
    `n / d` (d > 0) to produce an integer. */
module Rounding {
  import opened Arith

  /** The eight `ROUND_*` constants of Python's `decimal` module. */
  datatype Mode =
    | Ceiling     // ROUND_CEILING: toward +infinity
    | Down        // ROUND_DOWN: toward zero
    | Floor       // ROUND_FLOOR: toward -infinity
    | HalfDown    // ROUND_HALF_DOWN: nearest, ties toward zero
    | HalfEven    // ROUND_HALF_EVEN: nearest, ties to the even neighbour
    | HalfUp      // ROUND_HALF_UP: nearest, ties away from zero
    | Up          // ROUND_UP: away from zero
    | ZeroFiveUp  // ROUND_05UP: toward zero, unless that leaves a last digit of 0 or 5

  predicate IsHalfMode(m: Mode) {
    m == HalfDown || m == HalfEven || m == HalfUp
  }

  /** Rounds `n / d` to an integer under mode `m`, from Euclidean division. */
  function RoundDiv(n: int, d: int, m: Mode): int
    requires d > 0
  {
    var fl := n / d;
    var r := n % d;
    if r == 0 then fl
    else
      var ce := fl + 1;
      var toZero := if n >= 0 then fl else ce;
      var fromZero := if n >= 0 then ce else fl;
      match m
      case Floor => fl
      case Ceiling => ce
      case Down => toZero
      case Up => fromZero
      case HalfUp => if 2 * r < d then fl else if 2 * r > d then ce else fromZero
      case HalfDown => if 2 * r < d then fl else if 2 * r > d then ce else toZero
      case HalfEven => if 2 * r < d then fl else if 2 * r > d then ce else if fl % 2 == 0 then fl else ce
      case ZeroFiveUp => if Abs(toZero) % 10 == 0 || Abs(toZero) % 10 == 5 then fromZero else toZero
  }

  /** `z * d` lies below `n` by less than `d`. */
  ghost predicate BelowWithin(n: int, d: int, z: int) {
    z * d <= n < z * d + d
  }

  /** `z * d` lies above `n` by less than `d`. */
  ghost predicate AboveWithin(n: int, d: int, z: int) {
    z * d - d < n <= z * d
  }

  /** `z * d` is at most half of `d` away from `n`. */
  ghost predicate Nearest(n: int, d: int, z: int) {
    2 * Abs(n - z * d) <= d
  }

  ghost predicate IsTie(n: int, d: int, z: int) {
    2 * Abs(n - z * d) == d
  }

  /** Declarative meaning of each rounding mode: `z` is the integer that
      rounding `n / d` under `m` produces. */
  ghost predicate IsRounded(n: int, d: int, m: Mode, z: int)
    requires d > 0
  {
    match m
    case Floor => BelowWithin(n, d, z)
    case Ceiling => AboveWithin(n, d, z)
    case Down => if n >= 0 then BelowWithin(n, d, z) else AboveWithin(n, d, z)
    case Up => if n >= 0 then AboveWithin(n, d, z) else BelowWithin(n, d, z)
    case HalfUp => Nearest(n, d, z) && (IsTie(n, d, z) ==> Abs(z * d) > Abs(n))
    case HalfDown => Nearest(n, d, z) && (IsTie(n, d, z) ==> Abs(z * d) < Abs(n))
    case HalfEven => Nearest(n, d, z) && (IsTie(n, d, z) ==> z % 2 == 0)
    case ZeroFiveUp =>
      if n % d == 0 then z * d == n
      else
        z * d - d < n < z * d + d &&
        (if Abs(z * d) < Abs(n) then Abs(z) % 10 != 0 && Abs(z) % 10 != 5
         else var t := if n > 0 then z - 1 else z + 1; Abs(t) % 10 == 0 || Abs(t) % 10 == 5)
  }

  /** Every integer within `d` of `n` (scaled by `d`) is the floor or the floor plus one. */
  lemma NeighboursOfFloor(n: int, d: int, z: int)
    requires d > 0
    requires z * d - d < n < z * d + d
    ensures n % d == 0 ==> z == n / d
    ensures n % d != 0 ==> z == n / d || z == n / d + 1
  {
    var fl := n / d;
    assert fl * d <= n < fl * d + d;
    assert (fl + 1) * d == fl * d + d;
    assert (fl - 1) * d == fl * d - d;
    assert (z - 1) * d == z * d - d;
    MulStrictCancel(fl - 1, z, d);
    if n % d == 0 {
      MulStrictCancel(z, fl + 1, d);
    } else {
      assert (fl + 2) * d == fl * d + d + d;
      MulStrictCancel(z, fl + 2, d);
    }
  }

  /** Every mode lands strictly within one unit of the exact quotient. */
  lemma RoundedWithinOne(n: int, d: int, m: Mode, z: int)
    requires d > 0
    requires IsRounded(n, d, m, z)
    ensures z * d - d < n < z * d + d
  {
  }

  /** Euclidean division facts every proof below starts from. */
  lemma FloorFacts(n: int, d: int)
    requires d > 0
    ensures n == (n / d) * d + n % d && 0 <= n % d < d
    ensures (n / d + 1) * d == (n / d) * d + d
  {
  }

  predicate IsDirected(m: Mode) {
    m == Floor || m == Ceiling || m == Down || m == Up
  }

  lemma RoundDivIsRoundedDirected(n: int, d: int, m: Mode)
    requires d > 0 && IsDirected(m)
    ensures IsRounded(n, d, m, RoundDiv(n, d, m))
  {
    FloorFacts(n, d);
  }

  lemma RoundDivIsRoundedHalf(n: int, d: int, m: Mode)
    requires d > 0 && IsHalfMode(m)
    ensures IsRounded(n, d, m, RoundDiv(n, d, m))
  {
    FloorFacts(n, d);
  }

  /** ROUND_05UP from the sign of the floor: a negative `n` has a floor below zero. */
  lemma RoundDivIsRoundedZeroFiveUp(n: int, d: int)
    requires d > 0
    ensures IsRounded(n, d, ZeroFiveUp, RoundDiv(n, d, ZeroFiveUp))
  {
    FloorFacts(n, d);
    var fl := n / d;
    if n % d != 0 {
      if n < 0 {
        MulStrictCancel(fl, 0, d);
      } else {
        MulStrictCancel(-1, fl, d);
      }
    }
  }

  /** The algorithm meets the declarative meaning of its mode. */
  lemma RoundDivIsRounded(n: int, d: int, m: Mode)
    requires d > 0
    ensures IsRounded(n, d, m, RoundDiv(n, d, m))
  {
    if IsDirected(m) {
      RoundDivIsRoundedDirected(n, d, m);
    } else if IsHalfMode(m) {
      RoundDivIsRoundedHalf(n, d, m);
    } else {
      RoundDivIsRoundedZeroFiveUp(n, d);
    }
  }

  lemma RoundedIsRoundDivDirected(n: int, d: int, m: Mode, z: int)
    requires d > 0 && IsDirected(m)
    requires IsRounded(n, d, m, z)
    ensures z == RoundDiv(n, d, m)
  {
    FloorFacts(n, d);
    NeighboursOfFloor(n, d, z);
  }

  lemma RoundedIsRoundDivHalf(n: int, d: int, m: Mode, z: int)
    requires d > 0 && IsHalfMode(m)
    requires IsRounded(n, d, m, z)
    ensures z == RoundDiv(n, d, m)
  {
    FloorFacts(n, d);
    NeighboursOfFloor(n, d, z);
    var fl := n / d;
    assert fl % 2 == 0 <==> (fl + 1) % 2 != 0;
  }

  lemma RoundedIsRoundDivZeroFiveUp(n: int, d: int, z: int)
    requires d > 0
    requires IsRounded(n, d, ZeroFiveUp, z)
    ensures z == RoundDiv(n, d, ZeroFiveUp)
  {
    FloorFacts(n, d);
    NeighboursOfFloor(n, d, z);
    var fl := n / d;
    if n % d != 0 {
      if n < 0 {
        MulStrictCancel(fl, 0, d);
      } else {
        MulStrictCancel(-1, fl, d);
      }
    }
  }

  /** Nothing but the algorithm's integer meets the declarative meaning:
      `IsRounded` pins the rounded quotient down uniquely. */
  lemma RoundedIsRoundDiv(n: int, d: int, m: Mode, z: int)
    requires d > 0
    requires IsRounded(n, d, m, z)
    ensures z == RoundDiv(n, d, m)
  {
    if IsDirected(m) {
      RoundedIsRoundDivDirected(n, d, m, z);
    } else if IsHalfMode(m) {
      RoundedIsRoundDivHalf(n, d, m, z);
    } else {
      RoundedIsRoundDivZeroFiveUp(n, d, z);
    }
  }

  /** Both directions: `z` is the rounding of `n / d` under `m` exactly when
      the algorithm returns it. */
  lemma RoundDivIsTheRounding(n: int, d: int, m: Mode, z: int)
    requires d > 0
    ensures IsRounded(n, d, m, z) <==> z == RoundDiv(n, d, m)
  {
    if z == RoundDiv(n, d, m) {
      RoundDivIsRounded(n, d, m);
    }
    if IsRounded(n, d, m, z) {
      RoundedIsRoundDiv(n, d, m, z);
    }
  }

  /** Error bound: within one unit for every mode, within half a unit for
      the half-* modes, and exact when `d` divides `n`. */
  lemma RoundDivError(n: int, d: int, m: Mode)
    requires d > 0
    ensures var z := RoundDiv(n, d, m); Abs(z * d - n) < d
    ensures IsHalfMode(m) ==> 2 * Abs(RoundDiv(n, d, m) * d - n) <= d
    ensures n % d == 0 ==> RoundDiv(n, d, m) * d == n
  {
    var fl := n / d;
    assert n == fl * d + n % d;
    assert (fl + 1) * d == fl * d + d;
  }

  /** Floor and ceiling bracket every mode, and the exact quotient lies between them. */
  lemma RoundDivBracketed(n: int, d: int, m: Mode)
    requires d > 0
    ensures RoundDiv(n, d, Floor) <= RoundDiv(n, d, m) <= RoundDiv(n, d, Ceiling)
    ensures RoundDiv(n, d, Floor) * d <= n <= RoundDiv(n, d, Ceiling) * d
    ensures RoundDiv(n, d, Ceiling) - RoundDiv(n, d, Floor) <= 1
  {
    var fl := n / d;
    assert n == fl * d + n % d;
    assert (fl + 1) * d == fl * d + d;
  }

  /** Down never grows the magnitude, Up never shrinks it, and neither flips the sign. */
  lemma RoundDivDirection(n: int, d: int)
    requires d > 0
    ensures var z := RoundDiv(n, d, Down); Abs(z * d) <= Abs(n) && (n >= 0 ==> z >= 0) && (n <= 0 ==> z <= 0)
    ensures var z := RoundDiv(n, d, Up); Abs(z * d) >= Abs(n) && (n >= 0 ==> z >= 0) && (n <= 0 ==> z <= 0)
  {
    var fl := n / d;
    assert n == fl * d + n % d;
    assert (fl + 1) * d == fl * d + d;
    if n >= 0 {
      MulStrictCancel(-1, fl, d);
    } else {
      MulStrictCancel(fl, 0, d);
    }
  }

  /** No mode changes the sign of the quotient. */
  lemma RoundDivSign(n: int, d: int, m: Mode)
    requires d > 0
    ensures n >= 0 ==> RoundDiv(n, d, m) >= 0
    ensures n <= 0 ==> RoundDiv(n, d, m) <= 0
  {
    var fl := n / d;
    FloorFacts(n, d);
    RoundDivBracketed(n, d, m);
    if n == 0 {
      assert fl == 0;
    } else if n > 0 {
      MulStrictCancel(-1, fl, d);
    } else {
      MulStrictCancel(fl, 0, d);
    }
  }

  /** Any `z` with `z * d` within `d` of `n` keeps the whole units of `n / d`. */
  lemma WithinOneMagnitude(n: int, d: int, z: int, k: nat)
    requires d > 0
    requires z * d - d < n < z * d + d
    ensures Abs(n) >= k * d ==> Abs(z) >= k
    ensures Abs(n) <= k * d ==> Abs(z) <= k
  {
    var kd := k * d;
    var a: int := k - 1;
    var b: int := 1 - k;
    var c: int := k + 1;
    var e: int := -(k as int) - 1;
    assert a * d == kd - d;
    assert b * d == d - kd;
    assert c * d == kd + d;
    assert e * d == -kd - d;
    if Abs(n) >= kd {
      if n >= 0 {
        MulStrictCancel(a, z, d);
      } else {
        MulStrictCancel(z, b, d);
      }
    }
    if Abs(n) <= kd {
      MulStrictCancel(z, c, d);
      MulStrictCancel(e, z, d);
    }
  }

  /** A magnitude of at least `k` whole units survives rounding in every mode. */
  lemma RoundDivKeepsMagnitude(n: int, d: int, m: Mode, k: nat)
    requires d > 0
    requires Abs(n) >= k * d
    ensures Abs(RoundDiv(n, d, m)) >= k
  {
    RoundDivError(n, d, m);
    WithinOneMagnitude(n, d, RoundDiv(n, d, m), k);
  }

  /** A magnitude of at most `k` whole units stays at most `k` in every mode. */
  lemma RoundDivBoundsMagnitude(n: int, d: int, m: Mode, k: nat)
    requires d > 0
    requires Abs(n) <= k * d
    ensures Abs(RoundDiv(n, d, m)) <= k
  {
    RoundDivError(n, d, m);
    WithinOneMagnitude(n, d, RoundDiv(n, d, m), k);
  }

  /** An exact quotient is returned unchanged by every mode. */
  lemma RoundDivExact(q: int, d: int, m: Mode)
    requires d > 0
    ensures RoundDiv(q * d, d, m) == q
  {
    MulDivCancel(q, d);
  }

  /** Euclidean division is unique: a quotient and a remainder in [0, d)
      that rebuild `n` are the ones `/` and `%` return. */
  lemma DivModUnique(n: int, d: int, q: int, r: int)
    requires d > 0 && n == q * d + r && 0 <= r < d
    ensures n / d == q && n % d == r
  {
    var q', r' := n / d, n % d;
    FloorFacts(n, d);
    assert (q - q') * d == r' - r;
    MulStrictCancel(-1, q - q', d);
    MulStrictCancel(q - q', 1, d);
  }

  /** Scaling numerator and denominator by the same positive factor does not
      change the rounded quotient in any mode. */
  lemma RoundDivScaled(n: int, d: int, p: int, m: Mode)
    requires d > 0 && p > 0
    ensures RoundDiv(n * p, d * p, m) == RoundDiv(n, d, m)
  {
    var q, r := n / d, n % d;
    ScaledDivision(n, d, p);
    assert 2 * (r * p) - d * p == (2 * r - d) * p;
    ProductSign(2 * r - d, p);
    assert n * p >= 0 <==> n >= 0;
    SameRemainderClass(n, d, n * p, d * p, m);
  }

  /** Scaling keeps the quotient and scales the remainder. */
  lemma ScaledDivision(n: int, d: int, p: int)
    requires d > 0 && p > 0
    ensures (n * p) / (d * p) == n / d && (n * p) % (d * p) == (n % d) * p
    ensures (n % d) * p == 0 <==> n % d == 0
  {
    var q, r := n / d, n % d;
    assert n == q * d + r;
    assert n * p == q * (d * p) + r * p;
    assert r * p < d * p by {
      assert (d - r) * p > 0;
    }
    DivModUnique(n * p, d * p, q, r * p);
  }

  /** A positive factor keeps the sign. */
  lemma ProductSign(a: int, p: int)
    requires p > 0
    ensures a * p < 0 <==> a < 0
    ensures a * p > 0 <==> a > 0
  {
    if a < 0 {
      assert a * p == -((-a) * p);
    }
  }

  /** `RoundDiv` depends only on the quotient, on where the remainder lies
      against half the divisor, and on the sign of the numerator. */
  lemma SameRemainderClass(n: int, d: int, n': int, d': int, m: Mode)
    requires d > 0 && d' > 0
    requires n / d == n' / d'
    requires n % d == 0 <==> n' % d' == 0
    requires 2 * (n % d) < d <==> 2 * (n' % d') < d'
    requires 2 * (n % d) > d <==> 2 * (n' % d') > d'
    requires n >= 0 <==> n' >= 0
    ensures RoundDiv(n, d, m) == RoundDiv(n', d', m)
  {
  }

  /** Dividing by one is exact in every mode. */
  lemma RoundDivByOne(n: int, m: Mode)
    ensures RoundDiv(n, 1, m) == n
  {
  }
}

=== FILE: wrappers.dfy ===
/** Failure-compatible result types shared by the codec and the orchestrator. */
module Wrappers {

  /** An optional value, as Python's `None`-or-value arguments and Julia lookups use. */
  datatype Option<+T> = None | Some(value: T) {

    function GetOr(default: T): T {
      match this
      case Some(v) => v
      case None => default
    }
  }

  /** Either a value or the exception that was raised instead. */
  datatype Result<+T, +E> = Success(value: T) | Failure(error: E) {

    predicate IsFailure() {
      Failure?
    }

    function PropagateFailure<U>(): Result<U, E>
      requires Failure?
    {
      Failure(error)
    }

    function Extract(): T
      requires Success?
    {
      value
    }
  }
}
